=== FILE: README.md ===
# Health-insurance premium portal: a verified model of its decision logic

The portal lets a signed-in user ask for an annual health-insurance premium,
read why the premium is what it is, and buy a plan. An admin can browse the
registered users. Most of the code is user-interface and SQL glue. This
project models the five pieces that decide something, and proves what they
promise:

- **The prediction route** (`server/routes/user.js`). It validates and
  defaults the request and forwards it to the ML service. It then sorts the
  returned premium into Low, Medium or High. It composes an explanation and a
  recommendation from a fixed sequence of factor rules (age, BMI, smoking,
  dependents, conditions, income, genetical risk, plan, employment, marital
  status, risk), each adding at most one sentence, and joins each list with
  single spaces. Storing the prediction is best effort: a storage failure
  leaves the answer as it is, except that its id is null. The purchase route is modelled the same
  way. The ML service's answer and the database's outcome are parameters.
- **Feature engineering in the ML service** (`ml-service/main.py`). This
  covers the clamped 0–10 risk score, the BMI category, the one-hot feature
  row, the choice of the young or the rest model by age, and the clamp that
  keeps the premium non-negative. The trained scalers and regressors are
  parameters.
- **The medical-history buttons of the prediction form**
  (`client/src/pages/user/PredictionPage.jsx`). This is a small state machine
  over a list of condition names, with "No Disease" exclusive of every other
  entry, and a comma-joined conditions text derived from the list. It also
  covers the free-text box and the required-field guard that turns the form
  into a request body.
- **The fallback account registry** (`server/routes/auth.js`). When the
  database is unreachable, registration and login use an in-memory,
  append-only list seeded with two accounts. Email uniqueness and ids `1..n`
  are invariants. The database's answer is an input. Password hashing and
  token signing are abstract functions.
- **The admin's user search** (`client/src/pages/admin/ManageUsers.jsx`). This
  is a case-insensitive substring filter that keeps the list order.

JavaScript's value semantics are modelled explicitly where the code depends
on them. The modules `JsValues`, `Numerals` and `Text` cover truthiness,
`== null`, `parseInt`/`parseFloat` of numbers and of text, NaN (as `None`, so
every comparison with it is false), `x || d` defaults, `trim` and
`toLowerCase`. `Seqs` holds the order-preserving filter that the client code
uses. The composer is stated as a fold of per-factor rules over the fixed
factor order. The ordering, uniqueness and membership facts are proved once
about the fold, then specialised.

The worked profile is age 45, BMI 31, regular smoker, two dependents,
"Diabetes", income 4 lakhs, genetical risk 4, plan 1, freelancer, unmarried.
For this profile the code adds no income sentence, because its low-income
threshold is `< 3` (server/routes/user.js:188). The model follows the code.

## Model

| member | source | states |
|---|---|---|
| Composer.Classify | server/routes/user.js:83-89 | a premium above 10000 is High, 5000 up to and including 10000 is Medium, below 5000 is Low (each an if-and-only-if) |
| Composer.ClassifyMonotone | server/routes/user.js:83-89 | a higher premium never gives a lower risk tier |
| Composer.BracketOf | server/routes/user.js:95-125 | age brackets <25, <40, <55 and the rest; a NaN age fails every comparison and lands in the last bracket |
| Composer.TierOf | server/routes/user.js:213-218 | plan 2 is Silver, plan 3 is Gold, and every other value (1 included) is Bronze |
| Composer.BmiReasons | server/routes/user.js:127-144 | the BMI rule gives the underweight sentence iff the BMI is below 18.5, the overweight sentence iff it is in [25, 30), the obese sentence iff it is at least 30, and nothing otherwise (a NaN BMI gives nothing) |
| Composer.SmokingReasons | server/routes/user.js:146-162 | smoker 2 gives the regular-smoking sentence, smoker 1 the occasional one, any other value nothing |
| Composer.HistoryReasons | server/routes/user.js:175-184 | the medical-history sentence is produced iff the conditions text is notable, and it quotes the untrimmed text |
| Composer.IncomeReasons | server/routes/user.js:186-196 | an income below 3 gives the low-income sentence, above 15 the high-income sentence, and 3 to 15 inclusive nothing |
| Composer.GeneticReasons | server/routes/user.js:198-211 | a genetical risk of 3 or more gives the high sentence, 1 or 2 the moderate sentence, below 1 nothing |
| Composer.EmploymentReasons | server/routes/user.js:220-230 | exactly "freelancer" or "self-employed" (compared as given, no case folding) gives its sentence; any other status nothing |
| Composer.SmokingAdvices | server/routes/user.js:146-162 | smoker 2 gives the regular-smoker advice, smoker 1 the occasional-smoker advice, any other value nothing |
| Composer.Reasons | server/routes/user.js:95-238 | each factor rule adds at most one explanation sentence, and only a sentence of its own factor |
| Composer.Advices | server/routes/user.js:95-253 | each factor rule adds at most one recommendation sentence, and only a sentence of its own factor |
| Composer.FoldMembers | server/routes/user.js:91-253 | a sentence is in the composed list exactly when one of the visited rules produced it |
| Composer.FoldOrdered | server/routes/user.js:91-253 | folding rules in strictly increasing factor order yields a list whose factors strictly increase |
| Composer.FactorOrderIncreasing | server/routes/user.js:95-253 | the rules run in one fixed order that visits every factor once |
| Composer.ExplainOrdered | server/routes/user.js:91-238 | the explanation follows the factor order with at most one sentence per factor |
| Composer.RecommendOrdered | server/routes/user.js:91-253 | the recommendation follows the factor order with at most one sentence per factor |
| Composer.ExplainMembers | server/routes/user.js:95-238 | a sentence is in the explanation exactly when its own factor's rule produces it for the profile |
| Composer.RecommendMembers | server/routes/user.js:95-253 | a sentence is in the recommendation exactly when its own factor's rule produces it for the profile and risk |
| Composer.ExplainRules | server/routes/user.js:127-238 | each explanation sentence appears exactly under its rule's condition: underweight below 18.5, overweight in [25, 30), obese from 30, regular smoker for 2, occasional for 1, dependents above 0, low income below 3, high income above 15, high genetical risk from 3, moderate for 1 and 2, freelancer, self-employed, unmarried |
| Composer.RecommendRules | server/routes/user.js:137-211 | each recommendation appears exactly under its rule's condition: BMI advice from 30, regular and occasional smoker advice for 2 and 1, dependents advice above 0, genetical advice from 3 |
| Composer.BmiRules | server/routes/user.js:127-144 | in any list that holds exactly the sentences its rules produce, the three BMI sentences appear under the BMI thresholds |
| Composer.IncomeRules | server/routes/user.js:186-196 | in any such list the income sentences appear exactly below 3 and above 15 |
| Composer.GeneticRules | server/routes/user.js:198-211 | in any such list the genetical sentences appear exactly from 3 and for 1 and 2 |
| Composer.EmploymentRules | server/routes/user.js:220-230 | in any such list the employment sentences appear exactly for "freelancer" and "self-employed" |
| Composer.DependentsRules | server/routes/user.js:164-173 | in any such list the dependents sentence appears exactly for a positive count, and only with that count |
| Composer.ExplainStartsWithAge | server/routes/user.js:95-125 | the explanation is non-empty, opens with the sentence of the profile's age bracket, and has no other age sentence |
| Composer.RecommendStartsWithAge | server/routes/user.js:95-125 | the recommendation opens with the advice of the age bracket and has no other age advice |
| Composer.ExplainNamesPlanOnce | server/routes/user.js:213-218 | the explanation holds exactly one plan-tier sentence, and it names the tier of the selected plan |
| Composer.HistoryMentionedIff | server/routes/user.js:175-184 | the medical-history sentence and its advice appear if and only if the trimmed conditions text is non-empty and not "no disease" in any case; the sentence quotes the untrimmed text |
| Composer.NotableIgnoresPadding | server/routes/user.js:177 | whitespace around the conditions text does not change whether it earns a sentence |
| Composer.BlankNotNotable | server/routes/user.js:177 | a blank conditions text never earns a sentence |
| Composer.RecommendEndsWithRisk | server/routes/user.js:240-253 | the recommendation is never empty and ends with the one sentence for the computed risk tier, and no earlier sentence is about risk |
| Composer.ExplanationOpensWithAge | server/routes/user.js:95-255 | the space-joined explanation paragraph begins with the age sentence |
| Composer.RecommendationFrame | server/routes/user.js:240-256 | the space-joined recommendation begins with the age advice and ends with the risk sentence |
| PredictRoute.Payload | server/routes/user.js:64-79 | the ML body carries every field: age and BMI as their parses with no default; smoker, dependents, genetical risk and plan as their `parseInt`, replaced by 0, 0, 0 and 1 when that is NaN or 0; income as its `parseFloat`, replaced by 5 when NaN or 0; gender, region, conditions, marital and employment status as the value itself when truthy, otherwise "male", "northeast", "", "married" and "salaried" |
| PredictRoute.PayloadDefaults | server/routes/user.js:64-79 | a request with only age and BMI gets male, smoker 0, no dependents, northeast, "", income 5, plan 1, genetical 0, married, salaried |
| PredictRoute.DefaultsAgree | server/routes/user.js:64-79 | the server's defaults for every field it defaults are the ML service's declared defaults for that field (ml-service/main.py:55-69) |
| PredictRoute.ConditionsText | server/routes/user.js:176-177 | the conditions value, defaulted to "" when falsy, has no `trim` (the handler fails) exactly when it is truthy and not a string; a string is read as itself, a falsy value as "" |
| PredictRoute.ProfileOf | server/routes/user.js:96-233 | the composer reads the same parses and defaults that the ML body carries, and the conditions text |
| PredictRoute.Predict | server/routes/user.js:45-311 | 400 with no ML call iff age or BMI is null or undefined (0 passes); 502 iff the ML service answers an error; a 200 answer carries the premium, its risk tier, the stored id, every echoed field as sent or defaulted (employment and marital status included), and the explanation and recommendation composed from the parsed profile |
| PredictRoute.StorageFailureInvisible | server/routes/user.js:258-303 | a failed insert changes nothing the user sees except that the id is null |
| PredictRoute.PredictionTexts | server/routes/user.js:91-256 | a successful prediction's explanation opens with the age sentence, and its recommendation opens with the age advice and closes with the risk sentence |
| PredictRoute.WorkedProfile | server/routes/user.js:64-79 | the worked request reaches the composer with age 45, BMI 31, smoker 2, two dependents, income 4, genetical risk 4, plan 1, freelancer, unmarried |
| PredictRoute.WorkedExample | server/routes/user.js:60-89 | the worked request with an ML premium of 12000 calls the ML service and is answered High |
| PredictRoute.MakePurchase | server/routes/user.js:345-381 | 400 iff plan name, coverage or premium is falsy; otherwise status "active", the duration as sent when truthy and 1 otherwise, the stored or clock id, and the plan fields echoed |
| PredictRoute.PurchaseStorageFailureInvisible | server/routes/user.js:351-381 | a failed insert still confirms the purchase with the same fields; only the id differs |
| Features.BmiPoints | ml-service/main.py:82-85 | the BMI contribution is 3 below 18.5 or above 30, 1 in (25, 30], and 0 in [18.5, 25] |
| Features.SmokingPoints | ml-service/main.py:87-90 | the smoking contribution is 4 for smoker 2, 2 for smoker 1, and 0 otherwise |
| Features.KeywordPointsCount | ml-service/main.py:95-100 | scanning a keyword list without repeats adds the weight once per keyword that occurs |
| Features.ConditionPoints | ml-service/main.py:92-100 | the conditions contribution is 3 per distinct high-risk keyword plus 1 per distinct medium-risk keyword found in the lower-cased text |
| Features.NormalizedRisk | ml-service/main.py:78-102 | the score always lies in [0, 10] and equals the raw sum whenever that sum does |
| Features.NormalizedRiskMonotone | ml-service/main.py:78-102 | a higher genetical risk never lowers the score |
| Features.ComputeNormalizedRisk | ml-service/main.py:78-102 | the accumulate-scan-clamp loop computes exactly the clamped score |
| Features.CategoryOf | ml-service/main.py:105-113 | the categories partition the reals at 18.5, 25 and 30, each threshold belonging to the higher category |
| Features.PointsDisagreeWithCategory | ml-service/main.py:82-113 | the BMI score and the BMI category disagree exactly at 25 (Overweight, 0 points) and at 30 (Obesity, 1 point) |
| Features.SmokingStatusOf | ml-service/main.py:122-128 | smoker 0 is No Smoking, 1 is Occasional, anything else is Regular |
| Features.SmokingStatusVersusPoints | ml-service/main.py:87-128 | a smoker value other than 0, 1 and 2 is Regular in the row but adds no smoking points |
| Features.BuildFeatures | ml-service/main.py:116-160 | the row carries the clamped score and the numeric fields as given; each one-hot group sets at most one flag; a region flag is set iff the lower-cased region is that region; the salaried and self-employed flags iff the lower-cased status is that status; the BMI flags follow the 18.5, 25 and 30 thresholds; smoker 0 sets no smoking flag, 1 Occasional, any other Regular |
| Features.OneHotDecodes | ml-service/main.py:130-155 | the BMI category and smoking status can be read back from their flags |
| Features.FeaturesIgnoreCase | ml-service/main.py:139-155 | text fields are compared after lower-casing, so their letter case does not change the row |
| Features.ModelInput | ml-service/main.py:44-52 | the model input has the 18 training columns |
| Features.ModelInputByName | ml-service/main.py:156-191 | selecting the training columns by name gives the model input position by position, and the column names are distinct |
| Features.IncomeLevelDropped | ml-service/main.py:186-191 | income_level is not a model column, so it reaches the model only through the scaler |
| Features.CohortOf | ml-service/main.py:174-181 | the young model is chosen exactly when age < 25 |
| Features.PredictPremium | ml-service/main.py:169-197 | the premium is never negative and equals the chosen model's estimate whenever that estimate is non-negative |
| Features.YoungCohortIsolation | ml-service/main.py:174-181 | under 25 the premium depends on the young model only |
| Features.RestCohortIsolation | ml-service/main.py:174-181 | from 25 on the premium depends on the rest model only |
| PredictionForm.InitialValid | client/src/pages/user/PredictionPage.jsx:48-62 | the form starts with an empty, valid history |
| PredictionForm.Toggle | client/src/pages/user/PredictionPage.jsx:73-94 | "No Disease" sets the history to exactly that and clears the text; any other condition drops "No Disease", is appended when absent or removed when present with the rest in order, and the text is the history joined with ", "; no other field changes |
| PredictionForm.ToggleValid | client/src/pages/user/PredictionPage.jsx:73-94 | every press keeps the history duplicate-free with "No Disease" standing alone |
| PredictionForm.ToggleTwiceRestores | client/src/pages/user/PredictionPage.jsx:83-91 | pressing an unselected condition twice restores a valid history that lacked "No Disease" |
| PredictionForm.ToggleTwiceMovesToEnd | client/src/pages/user/PredictionPage.jsx:83-87 | pressing a selected condition twice moves it to the end of the history |
| PredictionForm.EditConditions | client/src/pages/user/PredictionPage.jsx:381-389 | typing keeps the text as typed and removes every preset except "No Disease" from the history, in order |
| PredictionForm.EditConditionsValid | client/src/pages/user/PredictionPage.jsx:381-389 | typing keeps the form valid |
| PredictionForm.EditConditionsClearsPresets | client/src/pages/user/PredictionPage.jsx:381-389 | after typing, a history of button presses is empty or exactly "No Disease" |
| PredictionForm.ShownConditionsFollows | client/src/pages/user/PredictionPage.jsx:73-94 | after "No Disease" the box is blank; after any other button it shows the history joined with ", "; after typing it shows the typed text unless "No Disease" is selected, and then nothing (lines 376-389) |
| PredictionForm.Submit | client/src/pages/user/PredictionPage.jsx:123-148 | nothing is sent unless age, BMI and income are non-empty; otherwise every numeric field (age, smoker, dependents, income, genetical risk, plan) travels as its parse, NaN as null, and the text fields are sent as typed |
| PredictionForm.SubmitReachesServer | client/src/pages/user/PredictionPage.jsx:125-148 | a submitted form is refused by the server exactly when its age or BMI text does not parse as a number |
| Accounts.ViewHidesPassword | server/routes/auth.js:72-90 | the user view has no password: accounts differing only in their password look the same |
| Accounts.SeedWellFormed | server/routes/auth.js:9-24 | the two seeded accounts have ids 1 and 2 and distinct emails |
| Accounts.FindAccount | server/routes/auth.js:145-147 | the first entry matching both email and password, found iff some entry matches |
| Accounts.Register | server/routes/auth.js:27-91 | 400 iff name, email or password is falsy; 201 iff the fields are truthy and either the store inserted the row or the store failed and the email is not listed; 409 from the store or for a listed email, with the list unchanged; the list changes only on a fallback success, by appending one "user" entry with id = old length + 1 |
| Accounts.RegisterWellFormed | server/routes/auth.js:69-78 | registration keeps ids 1..n and emails pairwise distinct |
| Accounts.Login | server/routes/auth.js:99-172 | 400 iff email or password is falsy; a stored row whose hash check answers decides by that answer alone; with no row, a failed query or a hash check that throws, login succeeds iff a listed entry matches both email and password, and the token claims the view of the first such entry, as `find` returns it |
| Accounts.RowDecidesLogin | server/routes/auth.js:110-139 | when the store returns a row and the hash check answers, the fallback list is not consulted |
| Accounts.CompareFailureFallsBack | server/routes/auth.js:116-150 | a hash check that throws on a stored row is caught and login proceeds exactly as if the store had no row |
| Accounts.Fallback | server/routes/auth.js:144-172 | the fallback list logs in iff some entry matches both email and password, with a token signed over the view of the first such entry, and refuses with 401 otherwise |
| Accounts.LoginAfterRegister | server/routes/auth.js:69-171 | with the store down, a newly registered account logs in at once with id = old length + 1 and role "user" |
| UserSearch.Filtered | client/src/pages/admin/ManageUsers.jsx:24-27 | the shown users are an order-preserving subsequence, kept iff the lower-cased search occurs in the lower-cased name or email, with every kept user as many times as in the list |
| UserSearch.EmptySearchKeepsAll | client/src/pages/admin/ManageUsers.jsx:24-27 | an empty search shows every user |
| UserSearch.CaseInsensitive | client/src/pages/admin/ManageUsers.jsx:24-27 | searches that lower-case alike show the same users in the same order |
| UserSearch.LowerCasedSearch | client/src/pages/admin/ManageUsers.jsx:24-27 | a search and its lower-cased form show the same users |
| JsValues.IntOr | server/routes/user.js:70-76 | parseInt with a default for falsy results returns the parse when it is a non-zero number, and the default otherwise |
| JsValues.RealOr | server/routes/user.js:74 | parseFloat with a default for falsy results returns the parse when it is a non-zero number, and the default otherwise |
| JsValues.FalsyTakesDefault | server/routes/user.js:70-76 | a missing, null, false, 0 or empty field always takes the default |
| JsValues.IntOrReadsNumeral | server/routes/user.js:70-76 | a decimal text of a non-zero integer survives parseInt and parseFloat with a falsy default unchanged |
| JsValues.IntToJson | client/src/pages/user/PredictionPage.jsx:136-145 | a parse travels in JSON as a number that parses back to itself, and NaN travels as null |
| JsValues.FalsyValues | server/routes/user.js:68-78 | the falsy values that an OR default replaces are exactly undefined, null, false, 0 and "" |
| JsValues.Or | server/routes/user.js:68-78 | an OR default is the value when it is truthy and the default otherwise, so it is truthy whenever the default is |
| JsValues.Trunc | server/routes/user.js:67 | `parseInt` of a number truncates toward zero: the floor for a non-negative number, the ceiling for a negative one |
| JsValues.ParseInt | server/routes/user.js:67 | only numbers and texts parse; a number always parses, to its truncation toward zero |
| JsValues.ParseIntOfWholeNumber | server/routes/user.js:67 | a whole number parses to itself |
| JsValues.ParseFloat | server/routes/user.js:69 | only numbers and texts parse; a number parses to itself |
| Numerals.ParseIntRoundTrip | client/src/pages/user/PredictionPage.jsx:136 | `parseInt` reads back the decimal text of every integer |
| Numerals.ParseFloatOfInteger | client/src/pages/user/PredictionPage.jsx:138 | `parseFloat` reads the decimal text of every integer as that number |
| Numerals.ParseIntText | client/src/pages/user/PredictionPage.jsx:136 | a text with no character among 0-9, a-f and A-F is NaN, and a negative result needs a minus sign in the text |
| Numerals.ParseFloatText | client/src/pages/user/PredictionPage.jsx:138 | a text with no decimal digit is NaN |
| Numerals.IntToText | server/routes/user.js:168 | the rendering starts with a minus sign exactly for negatives, every other character is a decimal digit, and a non-negative number of two or more digits has no leading zero |
| Text.Trim | server/routes/user.js:177 | `trim` is the middle slice of the text that starts after the leading whitespace; everything before and after it is whitespace, it neither starts nor ends with whitespace, and it is empty iff the text is all whitespace |
| Text.TrimTrimmed | server/routes/user.js:177 | text without whitespace at either end is left as it is, so trimming twice is trimming once |
| Text.ToLower | server/routes/user.js:177 | lower-casing keeps the length and maps each character on its own |
| Text.ToLowerIdempotent | client/src/pages/admin/ManageUsers.jsx:24-27 | lower-casing twice is lower-casing once |
| Text.JoinStartsWith | server/routes/user.js:255-256 | a joined list begins with its first part |
| Text.JoinEndsWith | server/routes/user.js:255-256 | a joined list ends with its last part |
| Text.JoinSnoc | client/src/pages/user/PredictionPage.jsx:86-91 | joining one more part at the end adds one separator and that part |
| Text.Includes | client/src/pages/admin/ManageUsers.jsx:25-26 | `includes` holds iff the needle occurs at some position of the text |
| Seqs.Filter | client/src/pages/admin/ManageUsers.jsx:24-27 | `filter` keeps exactly the elements that pass, as an order-preserving subsequence, each kept element as often as it occurs |

## Left out

- HTTP and Express plumbing, axios, and `pool.query` SQL are left out: they are network and driver behaviour. The database is an outcome parameter (saved with an id, failed, or for auth a row, no row, or a failure).
- The catch block's 502-versus-500 mapping is reduced to three ML outcomes: a premium, an error response (502), or no response at all (500). Other exceptions are not modelled.
- An ML answer without a numeric `predicted_premium` is not modelled; the premium is a real number.
- The stored columns of the prediction and purchase inserts are not modelled, only whether the insert succeeded.
- JSON arrays and objects as request values are not modelled. JSON has no NaN, but a numeral too large for a double, such as 1e400, parses to Infinity; numbers in the model are finite reals, so that case is not modelled.
- `parseInt` of a number whose text uses exponent notation (below 1e-6 or from 1e21 on) is not modelled; numbers are truncated.
- "Infinity" text and IEEE double rounding are not modelled: reals are exact.
- Number-to-text for the income sentence is a parameter (`realText`), since JavaScript number formatting is out of scope.
- Numerals.IntToText: renders every integer in plain decimal. JavaScript does so only below 1e21 in magnitude and switches to exponent notation from there (1e21 renders as "1e+21"), which is not modelled.
- Case mapping is ASCII-only, for JavaScript `toLowerCase` and Python `lower` alike; Unicode case folding is left out.
- The ML service's request validation and coercion (its typed request model, such as a null age being refused) is not modelled; `Features` starts from an already typed request.
- The scalers, the regressors and `round(..., 2)` are uninterpreted `Estimator` parameters. Building the DataFrame is modelled as the typed `FeatureRow`. The scaler maps rows to rows: the trained scaler replaces only its own columns with floats (ml-service/main.py:183-184), whereas the model keeps integer and bit types and would let it touch any column; no proved property depends on this, because the regression is uninterpreted.
- bcrypt and JWT are abstract functions (`verify`, `sign`). A `verify` that throws is `None` and is modelled; `sign` is total, so a `jwt.sign` that throws inside the database branch of login (server/routes/auth.js:123) or of registration (server/routes/auth.js:53-57) and falls back is not modelled; in registration that fallback would push an in-memory account after the insert had already succeeded. Token expiry and the secret are left out.
- `Date.now()` and the ISO timestamp of a purchase are parameters (`clockId`, `timestamp`).
- The generic `handleChange` of the other form inputs, the result and purchase panels, and every other page and route are UI or SQL only, and are left out.
- The admin routes, the auth middleware, the auth context and the protected route are thin wrappers over SQL, jsonwebtoken and localStorage, and are left out.
- PredictRoute.WorkedExample: states the route-level outcome (ML call made, answer High) and the parsed profile (`WorkedProfile`), not the worked profile's explanation list sentence by sentence.
- Features.ConditionPoints: states the count of distinct keywords found, not the bound of 11, which follows from there being five keywords.

=== FILE: accounts.dfy ===
/** Registration and login. The database's answers are parameters; when the
    database is unreachable the server falls back to an in-memory, append-only
    list of accounts seeded with two defaults. Password hashing (bcrypt) and
    token signing (JWT) are abstract functions. */
module Accounts {
  import opened Wrappers
  import opened JsValues

  const AdminRole: string := "admin"
  const UserRole: string := "user"

  /** An entry of the fallback list; its password is kept as sent. */
  datatype Account = Account(id: int, name: JsValue, email: JsValue, password: JsValue, role: string)

  /** What a client gets to see of an account, and what a token claims. */
  datatype UserView = UserView(id: int, name: JsValue, email: JsValue, role: string)

  function ViewOf(a: Account): UserView {
    UserView(a.id, a.name, a.email, a.role)
  }

  /** The view leaves the password out: accounts differing only in their password look alike. */
  lemma ViewHidesPassword(a: Account, password: JsValue)
    ensures ViewOf(a.(password := password)) == ViewOf(a)
    ensures ViewOf(a).id == a.id && ViewOf(a).email == a.email
  {
  }

  const Seed: seq<Account> := [
    Account(1, Str("Admin"), Str("admin@healthinsure.com"), Str("admin123"), AdminRole),
    Account(2, Str("John Doe"), Str("user@healthinsure.com"), Str("user123"), UserRole)]

  /** Ids are exactly 1..n in list order and no email occurs twice. */
  predicate WellFormed(accounts: seq<Account>) {
    && (forall i :: 0 <= i < |accounts| ==> accounts[i].id == i + 1)
    && (forall i, j :: 0 <= i < j < |accounts| ==> accounts[i].email != accounts[j].email)
  }

  lemma SeedWellFormed()
    ensures WellFormed(Seed) && |Seed| == 2
  {
  }

  predicate EmailTaken(accounts: seq<Account>, email: JsValue) {
    exists i :: 0 <= i < |accounts| && accounts[i].email == email
  }

  /** `accounts.find(a => a.email === email && a.password === password)`: the first entry matching both. */
  function FindAccount(accounts: seq<Account>, email: JsValue, password: JsValue): (r: Option<Account>)
    ensures r.Some? <==> exists i :: 0 <= i < |accounts| && accounts[i].email == email && accounts[i].password == password
    ensures r.Some? ==>
      exists i :: (0 <= i < |accounts| && accounts[i] == r.value &&
        r.value.email == email && r.value.password == password &&
        forall k :: 0 <= k < i ==> !(accounts[k].email == email && accounts[k].password == password))
  {
    if accounts == [] then None
    else if accounts[0].email == email && accounts[0].password == password then Some(accounts[0])
    else
      var r := FindAccount(accounts[1..], email, password);
      if r.Some? then
        var i :| 0 <= i < |accounts[1..]| && accounts[1..][i] == r.value &&
          r.value.email == email && r.value.password == password &&
          forall k :: 0 <= k < i ==> !(accounts[1..][k].email == email && accounts[1..][k].password == password);
        assert accounts[i + 1] == r.value;
        assert forall k :: 0 < k < i + 1 ==> accounts[k] == accounts[1..][k - 1];
        r
      else
        assert forall i :: 0 < i < |accounts| ==> accounts[i] == accounts[1..][i - 1];
        r
  }

  datatype AuthReply =
    | Created(token: string, user: UserView)     // 201
    | LoggedIn(token: string, user: UserView)    // 200
    | BadRequest(message: string)                // 400
    | Unauthorized(message: string)              // 401
    | Conflict(message: string)                  // 409

  /** What the database answers to a registration: the email is already
      there, the insert succeeded, or the attempt threw — a failed query or a
      failed `bcrypt.hash` (a password that is not a string), which the same
      handler catches. */
  datatype RegisterStore = StoredEmailTaken | Inserted(insertId: int) | RegisterStoreDown

  /** The reply and the fallback list afterwards. */
  datatype RegisterOutcome = RegisterOutcome(reply: AuthReply, accounts: seq<Account>)

  /** POST /register. `sign` turns claims into a token. */
  function Register(accounts: seq<Account>, name: JsValue, email: JsValue, password: JsValue,
                    store: RegisterStore, sign: UserView -> string): (o: RegisterOutcome)
    ensures o.reply.BadRequest? <==> !Truthy(name) || !Truthy(email) || !Truthy(password)
    ensures o.reply.Created? <==>
      Truthy(name) && Truthy(email) && Truthy(password) &&
      (store.Inserted? || (store.RegisterStoreDown? && !EmailTaken(accounts, email)))
    ensures o.reply.BadRequest? || o.reply.Created? || o.reply.Conflict?
    ensures o.accounts != accounts <==>
      Truthy(name) && Truthy(email) && Truthy(password) && store.RegisterStoreDown? && !EmailTaken(accounts, email)
    ensures o.accounts != accounts ==>
      o.accounts == accounts + [Account(|accounts| + 1, name, email, password, UserRole)]
    ensures o.reply.Conflict? <==>
      Truthy(name) && Truthy(email) && Truthy(password) &&
      (store.StoredEmailTaken? || (store.RegisterStoreDown? && EmailTaken(accounts, email)))
    ensures o.reply.Created? ==>
      && o.reply.user.role == UserRole && o.reply.user.name == name && o.reply.user.email == email
      && o.reply.token == sign(o.reply.user)
      && (store.Inserted? ==> o.reply.user.id == store.insertId)
      && (store.RegisterStoreDown? ==> o.reply.user == ViewOf(o.accounts[|accounts|]))
  {
    if !Truthy(name) || !Truthy(email) || !Truthy(password) then
      RegisterOutcome(BadRequest("All fields are required."), accounts)
    else
      match store
      case StoredEmailTaken => RegisterOutcome(Conflict("Email already registered."), accounts)
      case Inserted(insertId) =>
        var user := UserView(insertId, name, email, UserRole);
        RegisterOutcome(Created(sign(user), user), accounts)
      case RegisterStoreDown =>
        if EmailTaken(accounts, email) then
          RegisterOutcome(Conflict("Email already registered."), accounts)
        else
          var account := Account(|accounts| + 1, name, email, password, UserRole);
          var user := ViewOf(account);
          assert accounts + [account] != accounts by {
            assert |accounts + [account]| != |accounts|;
          }
          RegisterOutcome(Created(sign(user), user), accounts + [account])
  }

  /** Registration keeps the list well formed. */
  lemma RegisterWellFormed(accounts: seq<Account>, name: JsValue, email: JsValue, password: JsValue,
                           store: RegisterStore, sign: UserView -> string)
    requires WellFormed(accounts)
    ensures WellFormed(Register(accounts, name, email, password, store, sign).accounts)
  {
    var o := Register(accounts, name, email, password, store, sign);
    if o.accounts != accounts {
      var r := o.accounts;
      forall i, j | 0 <= i < j < |r| ensures r[i].email != r[j].email {
        if j == |accounts| {
          assert r[i] == accounts[i];
        } else {
          assert r[i] == accounts[i] && r[j] == accounts[j];
        }
      }
    }
  }

  /** What the database answers to a login lookup: the stored user with its
      password hash (None when the column is NULL), no row for the email, or a failure. */
  datatype StoredUser = StoredUser(id: int, name: JsValue, email: JsValue, passwordHash: Option<string>, role: string)
  datatype LoginStore = UserRow(user: StoredUser) | NoUserRow | LookupFailed

  /** POST /login. `verify` is `bcrypt.compare` of the sent password with a
      stored hash: Some(answer), or None when it throws (a password that is not
      a string, a NULL hash); the handler catches that throw and, as after a
      failed query, consults the fallback list. */
  function Login(accounts: seq<Account>, email: JsValue, password: JsValue, store: LoginStore,
                 verify: (JsValue, Option<string>) -> Option<bool>, sign: UserView -> string): (r: AuthReply)
    ensures r.BadRequest? <==> !Truthy(email) || !Truthy(password)
    ensures !r.Created? && !r.Conflict?
    ensures Truthy(email) && Truthy(password) && store.UserRow? && verify(password, store.user.passwordHash).Some? ==>
      var row := store.user;
      && (r.Unauthorized? <==> !verify(password, row.passwordHash).value)
      && (r.LoggedIn? ==> r.user == UserView(row.id, row.name, row.email, row.role))
    ensures Truthy(email) && Truthy(password) && (!store.UserRow? || verify(password, store.user.passwordHash).None?) ==>
      && (r.LoggedIn? <==> exists i :: 0 <= i < |accounts| && accounts[i].email == email && accounts[i].password == password)
      && (r.LoggedIn? ==> exists i :: 0 <= i < |accounts| && ViewOf(accounts[i]) == r.user &&
                                      accounts[i].email == email && accounts[i].password == password &&
                                      forall k :: 0 <= k < i ==> !(accounts[k].email == email && accounts[k].password == password))
    ensures r.LoggedIn? ==> r.token == sign(r.user)
  {
    if !Truthy(email) || !Truthy(password) then BadRequest("Email and password are required.")
    else
      match store
      case UserRow(row) =>
        (match verify(password, row.passwordHash)
         case Some(false) => Unauthorized("Invalid email or password.")
         case Some(true) =>
           var user := UserView(row.id, row.name, row.email, row.role);
           LoggedIn(sign(user), user)
         case None => Fallback(accounts, email, password, sign))
      case _ => Fallback(accounts, email, password, sign)
  }

  /** The fallback list decides: the first entry with both the email and the password. */
  function Fallback(accounts: seq<Account>, email: JsValue, password: JsValue, sign: UserView -> string): (r: AuthReply)
    ensures r.LoggedIn? || r.Unauthorized?
    ensures r.LoggedIn? <==> exists i :: 0 <= i < |accounts| && accounts[i].email == email && accounts[i].password == password
    ensures r.LoggedIn? ==> r.token == sign(r.user)
    ensures r.LoggedIn? ==>
      exists i :: 0 <= i < |accounts| && ViewOf(accounts[i]) == r.user &&
        accounts[i].email == email && accounts[i].password == password &&
        forall k :: 0 <= k < i ==> !(accounts[k].email == email && accounts[k].password == password)
  {
    match FindAccount(accounts, email, password)
    case None => Unauthorized("Invalid email or password.")
    case Some(account) => LoggedIn(sign(ViewOf(account)), ViewOf(account))
  }

  /** A row for the email whose hash check answers decides the login: the
      fallback list is never consulted. */
  lemma RowDecidesLogin(a1: seq<Account>, a2: seq<Account>, email: JsValue, password: JsValue,
                        row: StoredUser, verify: (JsValue, Option<string>) -> Option<bool>, sign: UserView -> string)
    requires verify(password, row.passwordHash).Some?
    ensures Login(a1, email, password, UserRow(row), verify, sign) == Login(a2, email, password, UserRow(row), verify, sign)
  {
  }

  /** A hash check that throws is treated as no row at all: the fallback list decides. */
  lemma CompareFailureFallsBack(accounts: seq<Account>, email: JsValue, password: JsValue, row: StoredUser,
                                verify: (JsValue, Option<string>) -> Option<bool>, sign: UserView -> string)
    requires verify(password, row.passwordHash).None?
    ensures Login(accounts, email, password, UserRow(row), verify, sign)
         == Login(accounts, email, password, NoUserRow, verify, sign)
  {
  }

  /** With the database unreachable, an account registered through the
      fallback can log in at once, and the token claims its new id. */
  lemma LoginAfterRegister(accounts: seq<Account>, name: JsValue, email: JsValue, password: JsValue,
                           store: LoginStore, verify: (JsValue, Option<string>) -> Option<bool>, sign: UserView -> string)
    requires WellFormed(accounts)
    requires Truthy(name) && Truthy(email) && Truthy(password) && !EmailTaken(accounts, email)
    requires !store.UserRow?
    ensures var o := Register(accounts, name, email, password, RegisterStoreDown, sign);
      var r := Login(o.accounts, email, password, store, verify, sign);
      && o.reply.Created?
      && r == LoggedIn(sign(UserView(|accounts| + 1, name, email, UserRole)), UserView(|accounts| + 1, name, email, UserRole))
  {
    var o := Register(accounts, name, email, password, RegisterStoreDown, sign);
    var after := o.accounts;
    assert after[|accounts|].email == email && after[|accounts|].password == password;
    var found := FindAccount(after, email, password);
    assert found.Some?;
    var i :| 0 <= i < |after| && after[i] == found.value && found.value.email == email && found.value.password == password &&
      forall k :: 0 <= k < i ==> !(after[k].email == email && after[k].password == password);
    if i < |accounts| {
      assert false;
    }
  }
}

=== FILE: composer.dfy ===
/** The rule-based composer of the prediction route: the risk tier of a
    premium, and the explanation ("why this premium") and recommendation ("why
    get insured") sentence lists built from a normalised profile. Each factor
    of the profile contributes at most one sentence to each list, and the
    factors are visited in one fixed order. */
module Composer {
  import opened Wrappers
  import opened JsValues
  import Text
  import Numerals

  datatype Risk = Low | Medium | High

  /** Premiums above 10000 are High, 5000 up to and including 10000 Medium, the rest Low. */
  function Classify(premium: real): (r: Risk)
    ensures r == High <==> premium > 10000.0
    ensures r == Medium <==> 5000.0 <= premium <= 10000.0
    ensures r == Low <==> premium < 5000.0
  {
    if premium > 10000.0 then High
    else if premium >= 5000.0 then Medium
    else Low
  }

  function Severity(r: Risk): nat {
    match r
    case Low => 0
    case Medium => 1
    case High => 2
  }

  /** A higher premium never gives a lower risk tier. */
  lemma ClassifyMonotone(p: real, q: real)
    requires p <= q
    ensures Severity(Classify(p)) <= Severity(Classify(q))
  {
  }

  /** The profile after the route's parsing and defaulting. `age` and `bmi`
      are None when they parsed to NaN. */
  datatype Profile = Profile(
    age: Option<int>,
    bmi: Option<real>,
    smoker: int,
    dependents: int,
    conditions: string,
    income: real,
    genetic: int,
    plan: int,
    employment: JsValue,
    marital: JsValue)

  /** `x < c` in JavaScript, false when x is NaN. */
  predicate Below(x: Option<real>, c: real) {
    x.Some? && x.value < c
  }

  /** `x >= c` in JavaScript, false when x is NaN. */
  predicate AtLeast(x: Option<real>, c: real) {
    x.Some? && x.value >= c
  }

  datatype AgeBracket = Young | Prime | Rising | Senior

  /** Brackets < 25, < 40, < 55 and the rest; NaN fails every comparison and lands in the last. */
  function BracketOf(age: Option<int>): (b: AgeBracket)
    ensures b == Young <==> age.Some? && age.value < 25
    ensures b == Prime <==> age.Some? && 25 <= age.value < 40
    ensures b == Rising <==> age.Some? && 40 <= age.value < 55
    ensures b == Senior <==> age.None? || age.value >= 55
  {
    if age.Some? && age.value < 25 then Young
    else if age.Some? && age.value < 40 then Prime
    else if age.Some? && age.value < 55 then Rising
    else Senior
  }

  datatype Tier = Bronze | Silver | Gold

  /** Plan 1, 2, 3 name Bronze, Silver, Gold; any other number falls back to Bronze. */
  function TierOf(plan: int): (t: Tier)
    ensures t == Silver <==> plan == 2
    ensures t == Gold <==> plan == 3
  {
    if plan == 2 then Silver else if plan == 3 then Gold else Bronze
  }

  /** The conditions text names something other than "no disease" (any case). */
  predicate Notable(conditions: string) {
    var t := Text.Trim(conditions);
    t != "" && Text.ToLower(t) != "no disease"
  }

  /** The factors, in the order the composer visits them. */
  datatype Factor =
    | AgeFactor | BmiFactor | SmokingFactor | DependentsFactor | ConditionsFactor
    | IncomeFactor | GeneticFactor | PlanFactor | EmploymentFactor | MaritalFactor | RiskFactor

  function Position(f: Factor): nat {
    match f
    case AgeFactor => 0
    case BmiFactor => 1
    case SmokingFactor => 2
    case DependentsFactor => 3
    case ConditionsFactor => 4
    case IncomeFactor => 5
    case GeneticFactor => 6
    case PlanFactor => 7
    case EmploymentFactor => 8
    case MaritalFactor => 9
    case RiskFactor => 10
  }

  const FactorOrder: seq<Factor> := [
    AgeFactor, BmiFactor, SmokingFactor, DependentsFactor, ConditionsFactor,
    IncomeFactor, GeneticFactor, PlanFactor, EmploymentFactor, MaritalFactor, RiskFactor]

  /** Explanation sentences, each carrying the values it quotes. */
  datatype Reason =
    | AgeReason(bracket: AgeBracket, age: Option<int>)
    | UnderweightReason
    | OverweightReason
    | ObeseReason
    | RegularSmokerReason
    | OccasionalSmokerReason
    | DependentsReason(count: int)
    | HistoryReason(conditions: string)
    | LowIncomeReason(income: real)
    | HighIncomeReason(income: real)
    | HighGeneticReason(score: int)
    | ModerateGeneticReason(score: int)
    | PlanReason(tier: Tier)
    | FreelancerReason
    | SelfEmployedReason
    | UnmarriedReason

  /** Recommendation sentences. */
  datatype Advice =
    | AgeAdvice(bracket: AgeBracket)
    | BmiAdvice
    | RegularSmokerAdvice
    | OccasionalSmokerAdvice
    | DependentsAdvice
    | ConditionsAdvice
    | GeneticAdvice
    | RiskAdvice(risk: Risk)

  function ReasonFactor(e: Reason): Factor {
    match e
    case AgeReason(_, _) => AgeFactor
    case UnderweightReason => BmiFactor
    case OverweightReason => BmiFactor
    case ObeseReason => BmiFactor
    case RegularSmokerReason => SmokingFactor
    case OccasionalSmokerReason => SmokingFactor
    case DependentsReason(_) => DependentsFactor
    case HistoryReason(_) => ConditionsFactor
    case LowIncomeReason(_) => IncomeFactor
    case HighIncomeReason(_) => IncomeFactor
    case HighGeneticReason(_) => GeneticFactor
    case ModerateGeneticReason(_) => GeneticFactor
    case PlanReason(_) => PlanFactor
    case FreelancerReason => EmploymentFactor
    case SelfEmployedReason => EmploymentFactor
    case UnmarriedReason => MaritalFactor
  }

  function AdviceFactor(a: Advice): Factor {
    match a
    case AgeAdvice(_) => AgeFactor
    case BmiAdvice => BmiFactor
    case RegularSmokerAdvice => SmokingFactor
    case OccasionalSmokerAdvice => SmokingFactor
    case DependentsAdvice => DependentsFactor
    case ConditionsAdvice => ConditionsFactor
    case GeneticAdvice => GeneticFactor
    case RiskAdvice(_) => RiskFactor
  }

  /** What one factor adds to the explanation list. */
  function Reasons(f: Factor, p: Profile): (r: seq<Reason>)
    ensures |r| <= 1 && (r != [] ==> ReasonFactor(r[0]) == f)
  {
    match f
    case AgeFactor => [AgeReason(BracketOf(p.age), p.age)]
    case BmiFactor => BmiReasons(p.bmi)
    case SmokingFactor => SmokingReasons(p.smoker)
    case DependentsFactor => if p.dependents > 0 then [DependentsReason(p.dependents)] else []
    case ConditionsFactor => HistoryReasons(p.conditions)
    case IncomeFactor => IncomeReasons(p.income)
    case GeneticFactor => GeneticReasons(p.genetic)
    case PlanFactor => [PlanReason(TierOf(p.plan))]
    case EmploymentFactor => EmploymentReasons(p.employment)
    case MaritalFactor => if p.marital == Str("unmarried") then [UnmarriedReason] else []
    case RiskFactor => []
  }

  function HistoryReasons(conditions: string): (r: seq<Reason>)
    ensures |r| <= 1 && (r != [] ==> ReasonFactor(r[0]) == ConditionsFactor)
    ensures r != [] <==> Notable(conditions)
    ensures r != [] ==> r == [HistoryReason(conditions)]
  {
    if Notable(conditions) then [HistoryReason(conditions)] else []
  }

  function BmiReasons(bmi: Option<real>): (r: seq<Reason>)
    ensures |r| <= 1 && (r != [] ==> ReasonFactor(r[0]) == BmiFactor)
    ensures r == [UnderweightReason] <==> Below(bmi, 18.5)
    ensures r == [OverweightReason] <==> AtLeast(bmi, 25.0) && Below(bmi, 30.0)
    ensures r == [ObeseReason] <==> AtLeast(bmi, 30.0)
  {
    if Below(bmi, 18.5) then [UnderweightReason]
    else if AtLeast(bmi, 25.0) && Below(bmi, 30.0) then [OverweightReason]
    else if AtLeast(bmi, 30.0) then [ObeseReason]
    else []
  }

  function SmokingReasons(smoker: int): (r: seq<Reason>)
    ensures |r| <= 1 && (r != [] ==> ReasonFactor(r[0]) == SmokingFactor)
    ensures r == [RegularSmokerReason] <==> smoker == 2
    ensures r == [OccasionalSmokerReason] <==> smoker == 1
    ensures r == [] <==> smoker != 1 && smoker != 2
  {
    if smoker == 2 then [RegularSmokerReason]
    else if smoker == 1 then [OccasionalSmokerReason]
    else []
  }

  function IncomeReasons(income: real): (r: seq<Reason>)
    ensures |r| <= 1 && (r != [] ==> ReasonFactor(r[0]) == IncomeFactor)
    ensures r == [LowIncomeReason(income)] <==> income < 3.0
    ensures r == [HighIncomeReason(income)] <==> income > 15.0
    ensures r == [] <==> 3.0 <= income <= 15.0
  {
    if income < 3.0 then [LowIncomeReason(income)]
    else if income > 15.0 then [HighIncomeReason(income)]
    else []
  }

  function GeneticReasons(genetic: int): (r: seq<Reason>)
    ensures |r| <= 1 && (r != [] ==> ReasonFactor(r[0]) == GeneticFactor)
    ensures r == [HighGeneticReason(genetic)] <==> genetic >= 3
    ensures r == [ModerateGeneticReason(genetic)] <==> 1 <= genetic < 3
    ensures r == [] <==> genetic < 1
  {
    if genetic >= 3 then [HighGeneticReason(genetic)]
    else if genetic >= 1 then [ModerateGeneticReason(genetic)]
    else []
  }

  function EmploymentReasons(employment: JsValue): (r: seq<Reason>)
    ensures |r| <= 1 && (r != [] ==> ReasonFactor(r[0]) == EmploymentFactor)
    ensures r == [FreelancerReason] <==> employment == Str("freelancer")
    ensures r == [SelfEmployedReason] <==> employment == Str("self-employed")
    ensures r == [] <==> employment != Str("freelancer") && employment != Str("self-employed")
  {
    if employment == Str("freelancer") then [FreelancerReason]
    else if employment == Str("self-employed") then [SelfEmployedReason]
    else []
  }

  /** What one factor adds to the recommendation list; the risk tier only matters for the last factor. */
  function Advices(f: Factor, p: Profile, risk: Risk): (r: seq<Advice>)
    ensures |r| <= 1 && (r != [] ==> AdviceFactor(r[0]) == f)
  {
    match f
    case AgeFactor => [AgeAdvice(BracketOf(p.age))]
    case BmiFactor => if AtLeast(p.bmi, 30.0) then [BmiAdvice] else []
    case SmokingFactor => SmokingAdvices(p.smoker)
    case DependentsFactor => if p.dependents > 0 then [DependentsAdvice] else []
    case ConditionsFactor => if Notable(p.conditions) then [ConditionsAdvice] else []
    case IncomeFactor => []
    case GeneticFactor => if p.genetic >= 3 then [GeneticAdvice] else []
    case PlanFactor => []
    case EmploymentFactor => []
    case MaritalFactor => []
    case RiskFactor => [RiskAdvice(risk)]
  }

  function SmokingAdvices(smoker: int): (r: seq<Advice>)
    ensures |r| <= 1 && (r != [] ==> AdviceFactor(r[0]) == SmokingFactor)
    ensures r == [RegularSmokerAdvice] <==> smoker == 2
    ensures r == [OccasionalSmokerAdvice] <==> smoker == 1
    ensures r == [] <==> smoker != 1 && smoker != 2
  {
    if smoker == 2 then [RegularSmokerAdvice]
    else if smoker == 1 then [OccasionalSmokerAdvice]
    else []
  }

  /** Each evaluator adds at most one sentence, and that sentence belongs to its own factor. */
  ghost predicate Tagged<T>(eval: Factor -> seq<T>, factorOf: T -> Factor) {
    forall f :: |eval(f)| <= 1 && (eval(f) != [] ==> factorOf(eval(f)[0]) == f)
  }

  /** Runs the evaluators of `fs` in order and concatenates what they add. */
  function Fold<T>(fs: seq<Factor>, eval: Factor -> seq<T>): seq<T>
  {
    if fs == [] then [] else eval(fs[0]) + Fold(fs[1..], eval)
  }

  function Explain(p: Profile): seq<Reason> {
    Fold(FactorOrder, f => Reasons(f, p))
  }

  function Recommend(p: Profile, risk: Risk): seq<Advice> {
    Fold(FactorOrder, f => Advices(f, p, risk))
  }

  /** Factors strictly increase along the list: the fixed order, and at most one sentence per factor. */
  ghost predicate Ordered<T>(xs: seq<T>, factorOf: T -> Factor) {
    forall i, j :: 0 <= i < j < |xs| ==> Position(factorOf(xs[i])) < Position(factorOf(xs[j]))
  }

  ghost predicate StrictlyIncreasing(fs: seq<Factor>) {
    forall i, j :: 0 <= i < j < |fs| ==> Position(fs[i]) < Position(fs[j])
  }

  /** A sentence is in the fold exactly when one of the visited evaluators produced it. */
  lemma {:induction false} FoldMembers<T>(fs: seq<Factor>, eval: Factor -> seq<T>, x: T)
    ensures x in Fold(fs, eval) <==> exists k :: 0 <= k < |fs| && x in eval(fs[k])
  {
    if fs != [] {
      FoldMembers(fs[1..], eval, x);
      if x in Fold(fs[1..], eval) {
        var k :| 0 <= k < |fs[1..]| && x in eval(fs[1..][k]);
        assert fs[1..][k] == fs[k + 1];
      }
      if exists k :: 0 <= k < |fs| && x in eval(fs[k]) {
        var k :| 0 <= k < |fs| && x in eval(fs[k]);
        if k > 0 {
          assert fs[1..][k - 1] == fs[k];
        }
      }
    }
  }

  /** Folding evaluators in increasing factor order, each adding at most one
      sentence of its own factor, gives a list in strictly increasing factor order. */
  lemma {:induction false} FoldOrdered<T>(fs: seq<Factor>, eval: Factor -> seq<T>, factorOf: T -> Factor)
    requires StrictlyIncreasing(fs)
    requires Tagged(eval, factorOf)
    ensures Ordered(Fold(fs, eval), factorOf)
  {
    if fs != [] {
      var head := eval(fs[0]);
      var tail := Fold(fs[1..], eval);
      assert StrictlyIncreasing(fs[1..]) by {
        forall i, j | 0 <= i < j < |fs[1..]|
          ensures Position(fs[1..][i]) < Position(fs[1..][j])
        {
          assert fs[1..][i] == fs[i + 1] && fs[1..][j] == fs[j + 1];
        }
      }
      FoldOrdered(fs[1..], eval, factorOf);
      forall j | 0 <= j < |tail|
        ensures Position(fs[0]) < Position(factorOf(tail[j]))
      {
        FoldMembers(fs[1..], eval, tail[j]);
        var k :| 0 <= k < |fs[1..]| && tail[j] in eval(fs[1..][k]);
        assert fs[1..][k] == fs[k + 1];
      }
      var r := head + tail;
      forall i, j | 0 <= i < j < |r|
        ensures Position(factorOf(r[i])) < Position(factorOf(r[j]))
      {
        if j < |head| {
          assert false;
        } else if i < |head| {
          assert r[i] == head[0];
          assert r[j] == tail[j - |head|];
        } else {
          assert r[i] == tail[i - |head|] && r[j] == tail[j - |head|];
        }
      }
    }
  }

  lemma FactorOrderIncreasing()
    ensures StrictlyIncreasing(FactorOrder)
    ensures forall f :: f in FactorOrder
  {
    forall f
      ensures f in FactorOrder
    {
      assert FactorOrder[Position(f)] == f;
    }
  }

  /** The explanation follows the factor order, with at most one sentence per factor. */
  lemma ExplainOrdered(p: Profile)
    ensures Ordered(Explain(p), ReasonFactor)
  {
    FactorOrderIncreasing();
    FoldOrdered(FactorOrder, f => Reasons(f, p), ReasonFactor);
  }

  /** The recommendation follows the factor order, with at most one sentence per factor. */
  lemma RecommendOrdered(p: Profile, risk: Risk)
    ensures Ordered(Recommend(p, risk), AdviceFactor)
  {
    FactorOrderIncreasing();
    FoldOrdered(FactorOrder, f => Advices(f, p, risk), AdviceFactor);
  }

  /** When every factor is visited, a sentence is in the fold exactly when
      the evaluator of its own factor produced it. */
  lemma FoldMembersAll<T>(fs: seq<Factor>, eval: Factor -> seq<T>, factorOf: T -> Factor, x: T)
    requires forall f :: f in fs
    requires Tagged(eval, factorOf)
    ensures x in Fold(fs, eval) <==> x in eval(factorOf(x))
  {
    FoldMembers(fs, eval, x);
    if x in Fold(fs, eval) {
      var k :| 0 <= k < |fs| && x in eval(fs[k]);
      assert x == eval(fs[k])[0];
    }
    if x in eval(factorOf(x)) {
      assert factorOf(x) in fs;
      var k :| 0 <= k < |fs| && fs[k] == factorOf(x);
      assert x in eval(fs[k]);
    }
  }

  /** Every sentence in `xs` was produced by its own factor's rule for `p`, and every sentence such a rule produces is in `xs`. */
  ghost predicate ReasonsOf(xs: seq<Reason>, p: Profile) {
    forall e :: e in xs <==> e in Reasons(ReasonFactor(e), p)
  }

  ghost predicate AdvicesOf(xs: seq<Advice>, p: Profile, risk: Risk) {
    forall a :: a in xs <==> a in Advices(AdviceFactor(a), p, risk)
  }

  /** One sentence is in the explanation exactly when its own factor's rule produces it. */
  lemma ExplainHas(p: Profile, e: Reason)
    ensures e in Explain(p) <==> e in Reasons(ReasonFactor(e), p)
  {
    FactorOrderIncreasing();
    FoldMembersAll(FactorOrder, f => Reasons(f, p), ReasonFactor, e);
  }

  /** One sentence is in the recommendation exactly when its own factor's rule produces it. */
  lemma RecommendHas(p: Profile, risk: Risk, a: Advice)
    ensures a in Recommend(p, risk) <==> a in Advices(AdviceFactor(a), p, risk)
  {
    FactorOrderIncreasing();
    FoldMembersAll(FactorOrder, f => Advices(f, p, risk), AdviceFactor, a);
  }

  /** A sentence is in the explanation exactly when its own factor's rule produces it. */
  lemma ExplainMembers(p: Profile)
    ensures ReasonsOf(Explain(p), p)
  {
    forall e
      ensures e in Explain(p) <==> e in Reasons(ReasonFactor(e), p)
    {
      ExplainHas(p, e);
    }
  }

  /** A sentence is in the recommendation exactly when its own factor's rule produces it. */
  lemma RecommendMembers(p: Profile, risk: Risk)
    ensures AdvicesOf(Recommend(p, risk), p, risk)
  {
    forall a
      ensures a in Recommend(p, risk) <==> a in Advices(AdviceFactor(a), p, risk)
    {
      RecommendHas(p, risk, a);
    }
  }

  /** The explanation opens with the one sentence of the age bracket, and no other sentence is about age. */
  lemma ExplainStartsWithAge(p: Profile)
    ensures Explain(p) != []
    ensures Explain(p)[0] == AgeReason(BracketOf(p.age), p.age)
    ensures forall i :: 0 < i < |Explain(p)| ==> ReasonFactor(Explain(p)[i]) != AgeFactor
  {
    assert FactorOrder[0] == AgeFactor;
    assert Explain(p) == Reasons(AgeFactor, p) + Fold(FactorOrder[1..], f => Reasons(f, p));
    ExplainOrdered(p);
  }

  /** The recommendation opens with the one sentence of the age bracket. */
  lemma RecommendStartsWithAge(p: Profile, risk: Risk)
    ensures Recommend(p, risk) != []
    ensures Recommend(p, risk)[0] == AgeAdvice(BracketOf(p.age))
    ensures forall i :: 0 < i < |Recommend(p, risk)| ==> AdviceFactor(Recommend(p, risk)[i]) != AgeFactor
  {
    assert FactorOrder[0] == AgeFactor;
    assert Recommend(p, risk) == Advices(AgeFactor, p, risk) + Fold(FactorOrder[1..], f => Advices(f, p, risk));
    RecommendOrdered(p, risk);
  }

  /** In an ordered list no two sentences share a factor. */
  lemma OrderedUnique<T>(xs: seq<T>, factorOf: T -> Factor, f: Factor)
    requires Ordered(xs, factorOf)
    ensures forall i, j :: 0 <= i < |xs| && 0 <= j < |xs| && factorOf(xs[i]) == f && factorOf(xs[j]) == f ==> i == j
  {
  }

  /** In an ordered list, a sentence of the last factor can only be the last sentence. */
  lemma OrderedEndsWith<T>(xs: seq<T>, factorOf: T -> Factor, x: T)
    requires Ordered(xs, factorOf)
    requires x in xs && factorOf(x) == RiskFactor
    ensures xs[|xs| - 1] == x
    ensures forall i :: 0 <= i < |xs| - 1 ==> factorOf(xs[i]) != RiskFactor
  {
    var k :| 0 <= k < |xs| && xs[k] == x;
    assert Position(factorOf(xs[|xs| - 1])) <= Position(RiskFactor);
    if k < |xs| - 1 {
      assert false;
    }
  }

  lemma PlanNamed(xs: seq<Reason>, p: Profile)
    requires ReasonsOf(xs, p)
    ensures PlanReason(TierOf(p.plan)) in xs
    ensures forall t :: PlanReason(t) in xs ==> t == TierOf(p.plan)
  {
    forall t
      ensures PlanReason(t) in xs <==> PlanReason(t) in Reasons(PlanFactor, p)
    {
    }
    PlanNamedNarrow(xs, p);
  }

  lemma PlanNamedNarrow(xs: seq<Reason>, p: Profile)
    requires forall t :: PlanReason(t) in xs <==> PlanReason(t) in Reasons(PlanFactor, p)
    ensures PlanReason(TierOf(p.plan)) in xs
    ensures forall t :: PlanReason(t) in xs ==> t == TierOf(p.plan)
  {
    assert PlanReason(TierOf(p.plan)) in Reasons(PlanFactor, p);
  }

  /** The explanation holds exactly one plan-tier sentence, naming the tier of the selected plan. */
  lemma ExplainNamesPlanOnce(p: Profile)
    ensures PlanReason(TierOf(p.plan)) in Explain(p)
    ensures forall t :: PlanReason(t) in Explain(p) ==> t == TierOf(p.plan)
    ensures forall i, j ::
      && 0 <= i < |Explain(p)| && 0 <= j < |Explain(p)|
      && ReasonFactor(Explain(p)[i]) == PlanFactor && ReasonFactor(Explain(p)[j]) == PlanFactor
      ==> i == j
  {
    ExplainMembers(p);
    PlanNamed(Explain(p), p);
    ExplainOrdered(p);
    OrderedUnique(Explain(p), ReasonFactor, PlanFactor);
  }

  lemma HistoryReasonNamed(xs: seq<Reason>, p: Profile)
    requires ReasonsOf(xs, p)
    ensures HistoryReason(p.conditions) in xs <==> Notable(p.conditions)
    ensures forall c :: HistoryReason(c) in xs ==> c == p.conditions
  {
    forall c
      ensures HistoryReason(c) in xs <==> HistoryReason(c) in Reasons(ConditionsFactor, p)
    {
      ReasonOf(xs, p, HistoryReason(c));
    }
    HistoryNamedNarrow(xs, p);
  }

  lemma ReasonOf(xs: seq<Reason>, p: Profile, e: Reason)
    requires ReasonsOf(xs, p)
    ensures e in xs <==> e in Reasons(ReasonFactor(e), p)
  {
  }

  lemma AdviceOf(ys: seq<Advice>, p: Profile, risk: Risk, a: Advice)
    requires AdvicesOf(ys, p, risk)
    ensures a in ys <==> a in Advices(AdviceFactor(a), p, risk)
  {
  }

  lemma HistoryNamedNarrow(xs: seq<Reason>, p: Profile)
    requires forall c :: HistoryReason(c) in xs <==> HistoryReason(c) in Reasons(ConditionsFactor, p)
    ensures HistoryReason(p.conditions) in xs <==> Notable(p.conditions)
    ensures forall c :: HistoryReason(c) in xs ==> c == p.conditions
  {
  }

  lemma ConditionsAdviceNamed(ys: seq<Advice>, p: Profile, risk: Risk)
    requires AdvicesOf(ys, p, risk)
    ensures ConditionsAdvice in ys <==> Notable(p.conditions)
  {
    assert ConditionsAdvice in ys <==> ConditionsAdvice in Advices(ConditionsFactor, p, risk);
    ConditionsAdviceNarrow(ys, p, risk);
  }

  lemma ConditionsAdviceNarrow(ys: seq<Advice>, p: Profile, risk: Risk)
    requires ConditionsAdvice in ys <==> ConditionsAdvice in Advices(ConditionsFactor, p, risk)
    ensures ConditionsAdvice in ys <==> Notable(p.conditions)
  {
  }

  /** Blank text is never worth a sentence. */
  lemma BlankNotNotable(c: string)
    requires forall i :: 0 <= i < |c| ==> Text.IsWhitespace(c[i])
    ensures !Notable(c)
  {
  }

  /** Padding around the conditions text does not change whether it is worth a sentence. */
  lemma NotableIgnoresPadding(c: string)
    ensures Notable(Text.Trim(c)) == Notable(c)
  {
    var t := Text.Trim(c);
    Text.TrimTrimmed(c);
    assert Text.Trim(t) == t;
  }

  /** In a list of at most one element, membership is being that element. */
  lemma InAtMostOne<T>(r: seq<T>, x: T)
    requires |r| <= 1
    ensures x in r <==> r == [x]
  {
  }

  lemma BmiRules(xs: seq<Reason>, p: Profile)
    requires ReasonsOf(xs, p)
    ensures UnderweightReason in xs <==> Below(p.bmi, 18.5)
    ensures OverweightReason in xs <==> AtLeast(p.bmi, 25.0) && Below(p.bmi, 30.0)
    ensures ObeseReason in xs <==> AtLeast(p.bmi, 30.0)
  {
    var r := Reasons(BmiFactor, p);
    ReasonOf(xs, p, UnderweightReason);
    ReasonOf(xs, p, OverweightReason);
    ReasonOf(xs, p, ObeseReason);
    InAtMostOne(r, UnderweightReason);
    InAtMostOne(r, OverweightReason);
    InAtMostOne(r, ObeseReason);
  }

  lemma SmokingRules(xs: seq<Reason>, p: Profile)
    requires ReasonsOf(xs, p)
    ensures RegularSmokerReason in xs <==> p.smoker == 2
    ensures OccasionalSmokerReason in xs <==> p.smoker == 1
  {
    var r := Reasons(SmokingFactor, p);
    ReasonOf(xs, p, RegularSmokerReason);
    ReasonOf(xs, p, OccasionalSmokerReason);
    InAtMostOne(r, RegularSmokerReason);
    InAtMostOne(r, OccasionalSmokerReason);
  }

  lemma DependentsRules(xs: seq<Reason>, p: Profile)
    requires ReasonsOf(xs, p)
    ensures DependentsReason(p.dependents) in xs <==> p.dependents > 0
    ensures forall n :: DependentsReason(n) in xs ==> n == p.dependents
  {
    ReasonOf(xs, p, DependentsReason(p.dependents));
    forall n | DependentsReason(n) in xs
      ensures n == p.dependents
    {
      ReasonOf(xs, p, DependentsReason(n));
    }
  }

  lemma IncomeRules(xs: seq<Reason>, p: Profile)
    requires ReasonsOf(xs, p)
    ensures LowIncomeReason(p.income) in xs <==> p.income < 3.0
    ensures HighIncomeReason(p.income) in xs <==> p.income > 15.0
  {
    var r := Reasons(IncomeFactor, p);
    ReasonOf(xs, p, LowIncomeReason(p.income));
    ReasonOf(xs, p, HighIncomeReason(p.income));
    InAtMostOne(r, LowIncomeReason(p.income));
    InAtMostOne(r, HighIncomeReason(p.income));
  }

  lemma GeneticRules(xs: seq<Reason>, p: Profile)
    requires ReasonsOf(xs, p)
    ensures HighGeneticReason(p.genetic) in xs <==> p.genetic >= 3
    ensures ModerateGeneticReason(p.genetic) in xs <==> 1 <= p.genetic < 3
  {
    var r := Reasons(GeneticFactor, p);
    ReasonOf(xs, p, HighGeneticReason(p.genetic));
    ReasonOf(xs, p, ModerateGeneticReason(p.genetic));
    InAtMostOne(r, HighGeneticReason(p.genetic));
    InAtMostOne(r, ModerateGeneticReason(p.genetic));
  }

  lemma EmploymentRules(xs: seq<Reason>, p: Profile)
    requires ReasonsOf(xs, p)
    ensures FreelancerReason in xs <==> p.employment == Str("freelancer")
    ensures SelfEmployedReason in xs <==> p.employment == Str("self-employed")
  {
    var r := Reasons(EmploymentFactor, p);
    ReasonOf(xs, p, FreelancerReason);
    ReasonOf(xs, p, SelfEmployedReason);
    InAtMostOne(r, FreelancerReason);
    InAtMostOne(r, SelfEmployedReason);
  }

  lemma MaritalRules(xs: seq<Reason>, p: Profile)
    requires ReasonsOf(xs, p)
    ensures UnmarriedReason in xs <==> p.marital == Str("unmarried")
  {
    ReasonOf(xs, p, UnmarriedReason);
  }

  /** When each explanation sentence appears: the thresholds of every factor rule. */
  lemma ExplainRules(p: Profile)
    ensures var e := Explain(p);
      && (UnderweightReason in e <==> Below(p.bmi, 18.5))
      && (OverweightReason in e <==> AtLeast(p.bmi, 25.0) && Below(p.bmi, 30.0))
      && (ObeseReason in e <==> AtLeast(p.bmi, 30.0))
      && (RegularSmokerReason in e <==> p.smoker == 2)
      && (OccasionalSmokerReason in e <==> p.smoker == 1)
      && (DependentsReason(p.dependents) in e <==> p.dependents > 0)
      && (LowIncomeReason(p.income) in e <==> p.income < 3.0)
      && (HighIncomeReason(p.income) in e <==> p.income > 15.0)
      && (HighGeneticReason(p.genetic) in e <==> p.genetic >= 3)
      && (ModerateGeneticReason(p.genetic) in e <==> 1 <= p.genetic < 3)
      && (FreelancerReason in e <==> p.employment == Str("freelancer"))
      && (SelfEmployedReason in e <==> p.employment == Str("self-employed"))
      && (UnmarriedReason in e <==> p.marital == Str("unmarried"))
  {
    ExplainMembers(p);
    BmiRules(Explain(p), p);
    SmokingRules(Explain(p), p);
    DependentsRules(Explain(p), p);
    IncomeRules(Explain(p), p);
    GeneticRules(Explain(p), p);
    EmploymentRules(Explain(p), p);
    MaritalRules(Explain(p), p);
  }

  lemma AdviceRulesOf(ys: seq<Advice>, p: Profile, risk: Risk)
    requires AdvicesOf(ys, p, risk)
    ensures BmiAdvice in ys <==> AtLeast(p.bmi, 30.0)
    ensures RegularSmokerAdvice in ys <==> p.smoker == 2
    ensures OccasionalSmokerAdvice in ys <==> p.smoker == 1
    ensures DependentsAdvice in ys <==> p.dependents > 0
    ensures GeneticAdvice in ys <==> p.genetic >= 3
  {
    var r := Advices(SmokingFactor, p, risk);
    AdviceOf(ys, p, risk, BmiAdvice);
    AdviceOf(ys, p, risk, RegularSmokerAdvice);
    AdviceOf(ys, p, risk, OccasionalSmokerAdvice);
    AdviceOf(ys, p, risk, DependentsAdvice);
    AdviceOf(ys, p, risk, GeneticAdvice);
    InAtMostOne(r, RegularSmokerAdvice);
    InAtMostOne(r, OccasionalSmokerAdvice);
  }

  /** When each recommendation sentence appears: obesity, smoking, dependents and high genetical risk. */
  lemma RecommendRules(p: Profile, risk: Risk)
    ensures var a := Recommend(p, risk);
      && (BmiAdvice in a <==> AtLeast(p.bmi, 30.0))
      && (RegularSmokerAdvice in a <==> p.smoker == 2)
      && (OccasionalSmokerAdvice in a <==> p.smoker == 1)
      && (DependentsAdvice in a <==> p.dependents > 0)
      && (GeneticAdvice in a <==> p.genetic >= 3)
  {
    RecommendMembers(p, risk);
    AdviceRulesOf(Recommend(p, risk), p, risk);
  }

  /** The medical-history sentence pair appears exactly when the conditions text is notable. */
  lemma HistoryMentionedIff(p: Profile, risk: Risk)
    ensures HistoryReason(p.conditions) in Explain(p) <==> Notable(p.conditions)
    ensures ConditionsAdvice in Recommend(p, risk) <==> Notable(p.conditions)
    ensures forall c :: HistoryReason(c) in Explain(p) ==> c == p.conditions
  {
    ExplainMembers(p);
    RecommendMembers(p, risk);
    HistoryReasonNamed(Explain(p), p);
    ConditionsAdviceNamed(Recommend(p, risk), p, risk);
  }

  /** The recommendation always ends with the one sentence for the risk tier, so it is never empty. */
  lemma RecommendEndsWithRisk(p: Profile, risk: Risk)
    ensures Recommend(p, risk) != []
    ensures Recommend(p, risk)[|Recommend(p, risk)| - 1] == RiskAdvice(risk)
    ensures forall i :: 0 <= i < |Recommend(p, risk)| - 1 ==> AdviceFactor(Recommend(p, risk)[i]) != RiskFactor
  {
    RecommendMembers(p, risk);
    RecommendOrdered(p, risk);
    RiskAdviceLast(Recommend(p, risk), p, risk);
  }

  lemma RiskAdviceLast(ys: seq<Advice>, p: Profile, risk: Risk)
    requires AdvicesOf(ys, p, risk) && Ordered(ys, AdviceFactor)
    ensures ys != [] && ys[|ys| - 1] == RiskAdvice(risk)
    ensures forall i :: 0 <= i < |ys| - 1 ==> AdviceFactor(ys[i]) != RiskFactor
  {
    assert RiskAdvice(risk) in ys <==> RiskAdvice(risk) in Advices(RiskFactor, p, risk);
    assert RiskAdvice(risk) in Advices(RiskFactor, p, risk);
    OrderedEndsWith(ys, AdviceFactor, RiskAdvice(risk));
  }

  function AgeText(age: Option<int>): string {
    match age
    case Some(n) => Numerals.IntToText(n)
    case None => "NaN"
  }

  function TierName(t: Tier): string {
    match t
    case Bronze => "Bronze"
    case Silver => "Silver"
    case Gold => "Gold"
  }

  /** The text of an explanation sentence. Integers are rendered in plain
      decimal, as JavaScript does below 1e21; the income is rendered by
      `realText`, JavaScript's number-to-string. */
  function ReasonText(e: Reason, realText: real -> string): string {
    match e
    case AgeReason(Young, age) =>
      "At " + AgeText(age) + ", you're in a younger age group which generally means lower base premiums."
    case AgeReason(Prime, age) =>
      "At " + AgeText(age) + ", you're in the prime working age group with moderate health risk."
    case AgeReason(Rising, age) =>
      "At " + AgeText(age) + ", health risks begin to increase, which impacts your premium."
    case AgeReason(Senior, age) =>
      "At " + AgeText(age) + ", you're in a higher risk age bracket which significantly affects the premium."
    case UnderweightReason =>
      "Your BMI indicates underweight status, which can signal nutritional or health concerns."
    case OverweightReason =>
      "Your BMI falls in the overweight range, which slightly increases health risk and premium."
    case ObeseReason =>
      "Your BMI is in the obese range, which is a significant risk factor for heart disease, diabetes, and other conditions \U{2014} driving up the premium."
    case RegularSmokerReason =>
      "Regular smoking is one of the biggest premium drivers \U{2014} it dramatically increases risk of cancer, lung disease, and heart conditions."
    case OccasionalSmokerReason =>
      "Occasional smoking still elevates your risk for respiratory and cardiovascular conditions, impacting your premium."
    case DependentsReason(n) =>
      "You have " + Numerals.IntToText(n) + " dependent(s), which means your family relies on your health and financial stability."
    case HistoryReason(c) =>
      "Your medical history (" + c + ") increases the likelihood of future medical claims, raising the premium."
    case LowIncomeReason(x) =>
      "Your income level (" + realText(x) + "L) is on the lower side, which the model considers when assessing affordable coverage."
    case HighIncomeReason(x) =>
      "With an income of " + realText(x) + "L, you have access to higher-tier plans and can afford more comprehensive coverage."
    case HighGeneticReason(g) =>
      "Your genetical risk score of " + Numerals.IntToText(g) + "/5 is high, indicating a family history of health conditions that significantly raises your premium."
    case ModerateGeneticReason(g) =>
      "Your genetical risk score of " + Numerals.IntToText(g) + "/5 indicates some family health history, moderately affecting the premium."
    case PlanReason(t) =>
      "You selected the " + TierName(t) + " plan tier, which affects the coverage level and premium amount."
    case FreelancerReason =>
      "As a freelancer, you may have less stable income which is factored into premium calculation."
    case SelfEmployedReason =>
      "Being self-employed, your income stability profile slightly influences the premium."
    case UnmarriedReason =>
      "Being unmarried is a factor the model considers, as it may correlate with different lifestyle risk profiles."
  }

  /** The text of a recommendation sentence. */
  function AdviceText(a: Advice): string {
    match a
    case AgeAdvice(Young) => "Starting insurance early locks in lower rates and builds long-term coverage."
    case AgeAdvice(Prime) => "This is the ideal time to secure comprehensive coverage before premiums increase with age."
    case AgeAdvice(Rising) => "Getting insured now protects you from escalating medical costs as you age."
    case AgeAdvice(Senior) => "Insurance is critical at this stage to cover potential hospitalization and chronic condition costs."
    case BmiAdvice => "With a higher BMI, medical expenses can be unpredictable. Insurance provides a safety net."
    case RegularSmokerAdvice =>
      "As a regular smoker, your medical costs are statistically much higher. Insurance is essential to avoid catastrophic out-of-pocket expenses."
    case OccasionalSmokerAdvice =>
      "Even occasional smoking increases long-term health risks. Insurance provides a valuable safety net."
    case DependentsAdvice =>
      "With dependents counting on you, insurance ensures your family is protected if anything happens."
    case ConditionsAdvice =>
      "Pre-existing conditions make insurance even more valuable \U{2014} it covers ongoing treatment and prevents financial burden."
    case GeneticAdvice =>
      "High genetical risk means you're more likely to face hereditary health issues. Insurance helps manage these future costs."
    case RiskAdvice(High) =>
      "\U{26A0}\U{FE0F} Your profile is HIGH RISK. We strongly recommend getting insured immediately to protect against potentially very high medical costs."
    case RiskAdvice(Medium) =>
      "Your profile shows moderate risk. Insurance at this stage gives you peace of mind and financial protection."
    case RiskAdvice(Low) =>
      "Your risk profile is low \U{2014} this is the best time to get affordable coverage and stay protected."
  }

  function ReasonTexts(rs: seq<Reason>, realText: real -> string): (r: seq<string>)
    ensures |r| == |rs|
    ensures forall i :: 0 <= i < |rs| ==> r[i] == ReasonText(rs[i], realText)
  {
    if rs == [] then [] else [ReasonText(rs[0], realText)] + ReasonTexts(rs[1..], realText)
  }

  function AdviceTexts(xs: seq<Advice>): (r: seq<string>)
    ensures |r| == |xs|
    ensures forall i :: 0 <= i < |xs| ==> r[i] == AdviceText(xs[i])
  {
    if xs == [] then [] else [AdviceText(xs[0])] + AdviceTexts(xs[1..])
  }

  /** The explanation paragraph: its sentences joined with single spaces. */
  function ExplanationText(p: Profile, realText: real -> string): string {
    Text.Join(ReasonTexts(Explain(p), realText), " ")
  }

  /** The recommendation paragraph: its sentences joined with single spaces. */
  function RecommendationText(p: Profile, risk: Risk): string {
    Text.Join(AdviceTexts(Recommend(p, risk)), " ")
  }

  /** The explanation paragraph opens with the age sentence. */
  lemma ExplanationOpensWithAge(p: Profile, realText: real -> string)
    ensures ReasonText(AgeReason(BracketOf(p.age), p.age), realText) <= ExplanationText(p, realText)
  {
    ExplainStartsWithAge(p);
    Text.JoinStartsWith(ReasonTexts(Explain(p), realText), " ");
  }

  /** The recommendation paragraph opens with the age advice and closes with the risk sentence. */
  lemma RecommendationFrame(p: Profile, risk: Risk)
    ensures AdviceText(AgeAdvice(BracketOf(p.age))) <= RecommendationText(p, risk)
    ensures Text.EndsWith(RecommendationText(p, risk), AdviceText(RiskAdvice(risk)))
  {
    RecommendStartsWithAge(p, risk);
    RecommendEndsWithRisk(p, risk);
    ParagraphFrame(Recommend(p, risk));
  }

  lemma ParagraphFrame(xs: seq<Advice>)
    requires xs != []
    ensures AdviceText(xs[0]) <= Text.Join(AdviceTexts(xs), " ")
    ensures Text.EndsWith(Text.Join(AdviceTexts(xs), " "), AdviceText(xs[|xs| - 1]))
  {
    Text.JoinStartsWith(AdviceTexts(xs), " ");
    Text.JoinEndsWith(AdviceTexts(xs), " ");
  }

}

=== FILE: features.dfy ===
/** The ML service's feature engineering: the clamped risk score, the BMI
    category, the one-hot feature row, the age-based choice between the two
    trained models and the non-negativity clamp on the answer. The trained
    models and their scalers are parameters. */
module Features {
  import Text
  import Seqs

  /** The fields of a prediction request as the ML service types them. */
  datatype PredictionInput = PredictionInput(
    age: int,
    gender: string,
    bmi: real,
    smoker: int,
    numDependents: int,
    region: string,
    existingConditions: string,
    incomeLakhs: real,
    incomeLevel: int,
    insurancePlan: int,
    geneticalRisk: int,
    maritalStatus: string,
    employmentStatus: string)

  /** A request that sends only the required age, every other field at its declared default. */
  function DefaultInput(age: int): PredictionInput {
    PredictionInput(age, "male", 25.0, 0, 0, "northeast", "", 5.0, 2, 1, 0, "married", "salaried")
  }

  /** BMI contribution to the risk score. */
  function BmiPoints(bmi: real): (r: int)
    ensures r == 3 <==> bmi < 18.5 || bmi > 30.0
    ensures r == 1 <==> 25.0 < bmi <= 30.0
    ensures r == 0 <==> 18.5 <= bmi <= 25.0
  {
    if bmi < 18.5 || bmi > 30.0 then 3
    else if bmi > 25.0 then 1
    else 0
  }

  /** Smoking contribution: 2 is a regular smoker, 1 an occasional one. */
  function SmokingPoints(smoker: int): (r: int)
    ensures r == 4 <==> smoker == 2
    ensures r == 2 <==> smoker == 1
    ensures r == 0 <==> smoker != 1 && smoker != 2
  {
    if smoker == 2 then 4
    else if smoker == 1 then 2
    else 0
  }

  const HighRiskKeywords: seq<string> := ["diabetes", "heart disease", "high blood pressure"]
  const MediumRiskKeywords: seq<string> := ["asthma", "thyroid"]

  /** The keywords of `keywords` that occur in `text`. */
  ghost function Found(keywords: seq<string>, text: string): set<string> {
    set k | k in keywords && Text.IsSubstring(k, text)
  }

  /** One scan of a keyword list: `weight` for every keyword found in `text`. */
  function KeywordPoints(keywords: seq<string>, weight: nat, text: string): nat {
    if keywords == [] then 0
    else (if Text.Includes(text, keywords[0]) then weight else 0) + KeywordPoints(keywords[1..], weight, text)
  }

  /** The first keyword joins the keywords found in the rest when it occurs itself. */
  lemma FoundCons(keywords: seq<string>, text: string)
    requires keywords != []
    ensures Found(keywords, text) ==
      Found(keywords[1..], text) + (if Text.IsSubstring(keywords[0], text) then {keywords[0]} else {})
  {
    assert forall k :: k in keywords <==> k == keywords[0] || k in keywords[1..];
  }

  /** Without repeats, the first keyword adds one to the count of the rest exactly when it occurs. */
  lemma FoundCount(keywords: seq<string>, text: string)
    requires Seqs.NoDuplicates(keywords) && keywords != []
    ensures |Found(keywords, text)| ==
      |Found(keywords[1..], text)| + (if Text.IsSubstring(keywords[0], text) then 1 else 0)
  {
    Seqs.NoDuplicatesTail(keywords);
    FoundCons(keywords, text);
    assert keywords[0] !in Found(keywords[1..], text);
  }

  lemma MulSucc(weight: nat, n: nat)
    ensures weight * (n + 1) == weight + weight * n
  {
  }

  /** Scanning a list without repeats counts each keyword found exactly once. */
  lemma {:induction false} KeywordPointsCount(keywords: seq<string>, weight: nat, text: string)
    requires Seqs.NoDuplicates(keywords)
    ensures KeywordPoints(keywords, weight, text) == weight * |Found(keywords, text)|
  {
    if keywords != [] {
      Seqs.NoDuplicatesTail(keywords);
      KeywordPointsCount(keywords[1..], weight, text);
      FoundCount(keywords, text);
      var n := |Found(keywords[1..], text)|;
      if Text.IsSubstring(keywords[0], text) {
        MulSucc(weight, n);
      }
    }
  }

  /** Conditions contribution: 3 for every high-risk keyword and 1 for every
      medium-risk keyword occurring in the lower-cased conditions text. */
  function ConditionPoints(conditions: string): (r: nat)
    ensures var text := Text.ToLower(conditions);
      r == 3 * |Found(HighRiskKeywords, text)| + |Found(MediumRiskKeywords, text)|
  {
    var text := Text.ToLower(conditions);
    KeywordPointsCount(HighRiskKeywords, 3, text);
    KeywordPointsCount(MediumRiskKeywords, 1, text);
    KeywordPoints(HighRiskKeywords, 3, text) + KeywordPoints(MediumRiskKeywords, 1, text)
  }

  /** The unclamped score: genetical risk plus the three contributions. */
  function RawRisk(bmi: real, smoker: int, conditions: string, genetical: int): int {
    genetical + BmiPoints(bmi) + SmokingPoints(smoker) + ConditionPoints(conditions)
  }

  /** compute_normalized_risk: the raw score clamped into [0, 10]. */
  function NormalizedRisk(bmi: real, smoker: int, conditions: string, genetical: int): (r: int)
    ensures 0 <= r <= 10
    ensures var raw := RawRisk(bmi, smoker, conditions, genetical);
      && (0 <= raw <= 10 ==> r == raw)
      && (raw < 0 ==> r == 0)
      && (raw > 10 ==> r == 10)
  {
    var raw := RawRisk(bmi, smoker, conditions, genetical);
    if raw < 0 then 0 else if raw > 10 then 10 else raw
  }

  /** The score never falls when the genetical risk rises. */
  lemma NormalizedRiskMonotone(bmi: real, smoker: int, conditions: string, g1: int, g2: int)
    requires g1 <= g2
    ensures NormalizedRisk(bmi, smoker, conditions, g1) <= NormalizedRisk(bmi, smoker, conditions, g2)
  {
  }

  /** The score as the service computes it: accumulate, scan both keyword
      lists one keyword at a time, then clamp. */
  method ComputeNormalizedRisk(bmi: real, smoker: int, conditions: string, genetical: int) returns (r: int)
    ensures r == NormalizedRisk(bmi, smoker, conditions, genetical)
  {
    var risk := genetical;
    if bmi < 18.5 || bmi > 30.0 {
      risk := risk + 3;
    } else if bmi > 25.0 {
      risk := risk + 1;
    }
    if smoker == 2 {
      risk := risk + 4;
    } else if smoker == 1 {
      risk := risk + 2;
    }
    var text := Text.ToLower(conditions);
    var base := risk;
    var i := 0;
    while i < |HighRiskKeywords|
      invariant 0 <= i <= |HighRiskKeywords|
      invariant risk + KeywordPoints(HighRiskKeywords[i..], 3, text) == base + KeywordPoints(HighRiskKeywords, 3, text)
    {
      assert HighRiskKeywords[i..][1..] == HighRiskKeywords[i + 1..];
      if Text.Includes(text, HighRiskKeywords[i]) {
        risk := risk + 3;
      }
      i := i + 1;
    }
    base := risk;
    i := 0;
    while i < |MediumRiskKeywords|
      invariant 0 <= i <= |MediumRiskKeywords|
      invariant risk + KeywordPoints(MediumRiskKeywords[i..], 1, text) == base + KeywordPoints(MediumRiskKeywords, 1, text)
    {
      assert MediumRiskKeywords[i..][1..] == MediumRiskKeywords[i + 1..];
      if Text.Includes(text, MediumRiskKeywords[i]) {
        risk := risk + 1;
      }
      i := i + 1;
    }
    r := if risk < 0 then 0 else if risk > 10 then 10 else risk;
  }

  datatype BmiCategory = Underweight | Normal | Overweight | Obesity

  /** get_bmi_category: the thresholds 18.5, 25 and 30, each the lower bound of the next category. */
  function CategoryOf(bmi: real): (c: BmiCategory)
    ensures c == Underweight <==> bmi < 18.5
    ensures c == Normal <==> 18.5 <= bmi < 25.0
    ensures c == Overweight <==> 25.0 <= bmi < 30.0
    ensures c == Obesity <==> 30.0 <= bmi
  {
    if bmi < 18.5 then Underweight
    else if bmi < 25.0 then Normal
    else if bmi < 30.0 then Overweight
    else Obesity
  }

  /** The points the category would suggest: extremes 3, overweight 1, normal 0. */
  function CategoryPoints(c: BmiCategory): int {
    match c
    case Underweight => 3
    case Normal => 0
    case Overweight => 1
    case Obesity => 3
  }

  /** The score and the category use different comparisons, and they disagree
      exactly at BMI 25 (Overweight, no points) and BMI 30 (Obesity, one point). */
  lemma PointsDisagreeWithCategory(bmi: real)
    ensures BmiPoints(bmi) != CategoryPoints(CategoryOf(bmi)) <==> bmi == 25.0 || bmi == 30.0
    ensures bmi == 30.0 ==> CategoryOf(bmi) == Obesity && BmiPoints(bmi) == 1
    ensures bmi == 25.0 ==> CategoryOf(bmi) == Overweight && BmiPoints(bmi) == 0
  {
  }

  datatype SmokingStatus = NoSmoking | Occasional | Regular

  /** Smoking status: 0 is a non-smoker, 1 occasional, anything else regular. */
  function SmokingStatusOf(smoker: int): (s: SmokingStatus)
    ensures s == NoSmoking <==> smoker == 0
    ensures s == Occasional <==> smoker == 1
  {
    if smoker == 0 then NoSmoking
    else if smoker == 1 then Occasional
    else Regular
  }

  /** The risk score treats only 2 as regular smoking, the feature row every value but 0 and 1. */
  lemma SmokingStatusVersusPoints(smoker: int)
    ensures SmokingStatusOf(smoker) == Regular && smoker != 2 ==> SmokingPoints(smoker) == 0
    ensures SmokingStatusOf(smoker) == Regular <==> smoker != 0 && smoker != 1
  {
  }

  type Bit = b: int | 0 <= b <= 1

  function Flag(b: bool): (r: Bit)
    ensures r == 1 <==> b
  {
    if b then 1 else 0
  }

  /** One row of the model's frame; the first seven columns are numbers, the
      rest one-hot flags against a base value (Northeast, Married, Normal,
      No Smoking, Freelancer) that has no column. */
  datatype FeatureRow = FeatureRow(
    age: int,
    numberOfDependants: int,
    incomeLevel: int,
    incomeLakhs: real,
    insurancePlan: int,
    geneticalRisk: int,
    normalizedRiskScore: int,
    genderMale: Bit,
    regionNorthwest: Bit,
    regionSoutheast: Bit,
    regionSouthwest: Bit,
    maritalUnmarried: Bit,
    bmiObesity: Bit,
    bmiOverweight: Bit,
    bmiUnderweight: Bit,
    smokingOccasional: Bit,
    smokingRegular: Bit,
    employmentSalaried: Bit,
    employmentSelfEmployed: Bit)

  /** build_features. Text fields are compared after lower-casing. */
  function BuildFeatures(d: PredictionInput): (row: FeatureRow)
    ensures row.normalizedRiskScore == NormalizedRisk(d.bmi, d.smoker, d.existingConditions, d.geneticalRisk)
    ensures row.age == d.age && row.incomeLevel == d.incomeLevel && row.incomeLakhs == d.incomeLakhs
    ensures row.numberOfDependants == d.numDependents && row.insurancePlan == d.insurancePlan
    ensures row.geneticalRisk == d.geneticalRisk
    ensures row.genderMale == 1 <==> Text.ToLower(d.gender) == "male"
    ensures row.regionNorthwest == 1 <==> Text.ToLower(d.region) == "northwest"
    ensures row.regionSoutheast == 1 <==> Text.ToLower(d.region) == "southeast"
    ensures row.regionSouthwest == 1 <==> Text.ToLower(d.region) == "southwest"
    ensures row.regionNorthwest + row.regionSoutheast + row.regionSouthwest <= 1
    ensures row.regionNorthwest + row.regionSoutheast + row.regionSouthwest == 0 <==>
      Text.ToLower(d.region) !in {"northwest", "southeast", "southwest"}
    ensures row.bmiObesity == 1 <==> d.bmi >= 30.0
    ensures row.bmiOverweight == 1 <==> 25.0 <= d.bmi < 30.0
    ensures row.bmiUnderweight == 1 <==> d.bmi < 18.5
    ensures row.bmiObesity + row.bmiOverweight + row.bmiUnderweight <= 1
    ensures row.bmiObesity + row.bmiOverweight + row.bmiUnderweight == 0 <==> 18.5 <= d.bmi < 25.0
    ensures row.smokingOccasional + row.smokingRegular <= 1
    ensures d.smoker == 0 ==> row.smokingOccasional == 0 && row.smokingRegular == 0
    ensures d.smoker == 1 ==> row.smokingOccasional == 1 && row.smokingRegular == 0
    ensures d.smoker != 0 && d.smoker != 1 ==> row.smokingOccasional == 0 && row.smokingRegular == 1
    ensures row.employmentSalaried == 1 <==> Text.ToLower(d.employmentStatus) == "salaried"
    ensures row.employmentSelfEmployed == 1 <==> Text.ToLower(d.employmentStatus) == "self-employed"
    ensures row.employmentSalaried + row.employmentSelfEmployed <= 1
    ensures row.maritalUnmarried == 1 <==> Text.ToLower(d.maritalStatus) == "unmarried"
  {
    var category := CategoryOf(d.bmi);
    var smoking := SmokingStatusOf(d.smoker);
    var region := Text.ToLower(d.region);
    var employment := Text.ToLower(d.employmentStatus);
    FeatureRow(
      d.age, d.numDependents, d.incomeLevel, d.incomeLakhs, d.insurancePlan, d.geneticalRisk,
      NormalizedRisk(d.bmi, d.smoker, d.existingConditions, d.geneticalRisk),
      Flag(Text.ToLower(d.gender) == "male"),
      Flag(region == "northwest"),
      Flag(region == "southeast"),
      Flag(region == "southwest"),
      Flag(Text.ToLower(d.maritalStatus) == "unmarried"),
      Flag(category == Obesity),
      Flag(category == Overweight),
      Flag(category == Underweight),
      Flag(smoking == Occasional),
      Flag(smoking == Regular),
      Flag(employment == "salaried"),
      Flag(employment == "self-employed"))
  }

  /** Reads the BMI category back from its one-hot flags; no flag is the base, Normal. */
  function RowCategory(row: FeatureRow): BmiCategory {
    if row.bmiObesity == 1 then Obesity
    else if row.bmiOverweight == 1 then Overweight
    else if row.bmiUnderweight == 1 then Underweight
    else Normal
  }

  /** Reads the smoking status back from its one-hot flags. */
  function RowSmoking(row: FeatureRow): SmokingStatus {
    if row.smokingOccasional == 1 then Occasional
    else if row.smokingRegular == 1 then Regular
    else NoSmoking
  }

  /** The one-hot groups lose nothing: both category and smoking status decode back. */
  lemma OneHotDecodes(d: PredictionInput)
    ensures RowCategory(BuildFeatures(d)) == CategoryOf(d.bmi)
    ensures RowSmoking(BuildFeatures(d)) == SmokingStatusOf(d.smoker)
  {
  }

  /** Letter case does not matter in the text fields. */
  lemma FeaturesIgnoreCase(d: PredictionInput, e: PredictionInput)
    requires e == d.(gender := Text.ToLower(d.gender), region := Text.ToLower(d.region),
                     maritalStatus := Text.ToLower(d.maritalStatus),
                     employmentStatus := Text.ToLower(d.employmentStatus))
    ensures BuildFeatures(e) == BuildFeatures(d)
  {
    Text.ToLowerIdempotent(d.gender);
    Text.ToLowerIdempotent(d.region);
    Text.ToLowerIdempotent(d.maritalStatus);
    Text.ToLowerIdempotent(d.employmentStatus);
  }

  /** The model's columns, in training order; income_level is not among them. */
  const FeatureColumns: seq<string> := NumericColumns + PersonColumns + HealthColumns

  const NumericColumns: seq<string> := [
    "age", "number_of_dependants", "income_lakhs", "insurance_plan",
    "genetical_risk", "normalized_risk_score"]

  const PersonColumns: seq<string> := [
    "gender_Male", "region_Northwest", "region_Southeast", "region_Southwest",
    "marital_status_Unmarried"]

  const HealthColumns: seq<string> := [
    "bmi_category_Obesity", "bmi_category_Overweight", "bmi_category_Underweight",
    "smoking_status_Occasional", "smoking_status_Regular",
    "employment_status_Salaried", "employment_status_Self-Employed"]

  /** The row as the dictionary build_features creates: a value per column name. */
  function Column(row: FeatureRow, name: string): (v: real)
    requires name == "income_level" || name in FeatureColumns
  {
    match name
    case "age" => row.age as real
    case "number_of_dependants" => row.numberOfDependants as real
    case "income_level" => row.incomeLevel as real
    case "income_lakhs" => row.incomeLakhs
    case "insurance_plan" => row.insurancePlan as real
    case "genetical_risk" => row.geneticalRisk as real
    case "normalized_risk_score" => row.normalizedRiskScore as real
    case "gender_Male" => row.genderMale as real
    case "region_Northwest" => row.regionNorthwest as real
    case "region_Southeast" => row.regionSoutheast as real
    case "region_Southwest" => row.regionSouthwest as real
    case "marital_status_Unmarried" => row.maritalUnmarried as real
    case "bmi_category_Obesity" => row.bmiObesity as real
    case "bmi_category_Overweight" => row.bmiOverweight as real
    case "bmi_category_Underweight" => row.bmiUnderweight as real
    case "smoking_status_Occasional" => row.smokingOccasional as real
    case "smoking_status_Regular" => row.smokingRegular as real
    case "employment_status_Salaried" => row.employmentSalaried as real
    case "employment_status_Self-Employed" => row.employmentSelfEmployed as real
    case _ => 0.0
  }

  /** What the model reads: the row with income_level dropped, in training order. */
  function ModelInput(row: FeatureRow): (v: seq<real>)
    ensures |v| == |FeatureColumns| == 18
  {
    [row.age as real, row.numberOfDependants as real, row.incomeLakhs, row.insurancePlan as real,
     row.geneticalRisk as real, row.normalizedRiskScore as real, row.genderMale as real,
     row.regionNorthwest as real, row.regionSoutheast as real, row.regionSouthwest as real,
     row.maritalUnmarried as real, row.bmiObesity as real,
     row.bmiOverweight as real, row.bmiUnderweight as real,
     row.smokingOccasional as real, row.smokingRegular as real,
     row.employmentSalaried as real, row.employmentSelfEmployed as real]
  }

  /** Selecting the training columns by name gives the model input, position by position. */
  lemma ModelInputByName(row: FeatureRow)
    ensures Seqs.NoDuplicates(FeatureColumns)
    ensures forall i :: 0 <= i < |FeatureColumns| ==> ModelInput(row)[i] == Column(row, FeatureColumns[i])
  {
    ColumnsDistinct();
    forall i | 0 <= i < |FeatureColumns|
      ensures ModelInput(row)[i] == Column(row, FeatureColumns[i])
    {
    }
  }

  lemma ColumnsDistinct()
    ensures Seqs.NoDuplicates(FeatureColumns)
  {
    GroupsDistinct();
    GroupsDisjoint();
    Seqs.ConcatNoDuplicates(NumericColumns, PersonColumns);
    Seqs.ConcatNoDuplicates(NumericColumns + PersonColumns, HealthColumns);
  }

  lemma GroupsDistinct()
    ensures Seqs.NoDuplicates(NumericColumns)
    ensures Seqs.NoDuplicates(PersonColumns)
    ensures Seqs.NoDuplicates(HealthColumns)
  {
  }

  lemma GroupsDisjoint()
    ensures forall x :: x in NumericColumns ==> x !in PersonColumns
    ensures forall x :: x in NumericColumns + PersonColumns ==> x !in HealthColumns
  {
  }

  /** income_level reaches the model only through the scaler: rows differing in it alone read the same. */
  lemma IncomeLevelDropped(row: FeatureRow, level: int)
    ensures ModelInput(row.(incomeLevel := level)) == ModelInput(row)
    ensures "income_level" !in FeatureColumns
  {
  }

  /** A trained cohort model: its scaler (which may read income_level) and
      its regression, including the rounding to cents. The scaler is typed as
      a map from rows to rows, so its scaled values keep the row's integer and
      bit types, and nothing stops it rewriting columns the trained scaler
      leaves alone; no property here depends on either, because the
      regression is a parameter. */
  datatype Estimator = Estimator(scale: FeatureRow -> FeatureRow, regress: seq<real> -> real)

  datatype Models = Models(young: Estimator, rest: Estimator)

  datatype Cohort = YoungCohort | RestCohort

  function CohortOf(age: int): (c: Cohort)
    ensures c == YoungCohort <==> age < 25
  {
    if age < 25 then YoungCohort else RestCohort
  }

  function EstimatorFor(models: Models, c: Cohort): Estimator {
    match c
    case YoungCohort => models.young
    case RestCohort => models.rest
  }

  /** The estimate before the clamp: scale the row, drop income_level, regress. */
  function Estimate(e: Estimator, row: FeatureRow): real {
    e.regress(ModelInput(e.scale(row)))
  }

  /** POST /predict of the ML service: the premium is the chosen cohort's
      estimate, or 0 when that estimate is negative. */
  function PredictPremium(d: PredictionInput, models: Models): (premium: real)
    ensures premium >= 0.0
    ensures var estimate := Estimate(EstimatorFor(models, CohortOf(d.age)), BuildFeatures(d));
      && (estimate >= 0.0 ==> premium == estimate)
      && (estimate < 0.0 ==> premium == 0.0)
  {
    var estimate := Estimate(EstimatorFor(models, CohortOf(d.age)), BuildFeatures(d));
    if estimate >= 0.0 then estimate else 0.0
  }

  /** Under 25, the premium depends on the young model only. */
  lemma YoungCohortIsolation(d: PredictionInput, m1: Models, m2: Models)
    requires d.age < 25 && m1.young == m2.young
    ensures PredictPremium(d, m1) == PredictPremium(d, m2)
  {
  }

  /** From 25 on, the premium depends on the rest model only. */
  lemma RestCohortIsolation(d: PredictionInput, m1: Models, m2: Models)
    requires d.age >= 25 && m1.rest == m2.rest
    ensures PredictPremium(d, m1) == PredictPremium(d, m2)
  {
  }
}

=== FILE: js_values.dfy ===
/** Values of a JSON request body as JavaScript sees them, and the coercions the
    route handlers apply to them: truthiness, `== null`, parseInt, parseFloat
    and the `x || default` idiom. Numbers are finite: JSON has no NaN, and the
    Infinity that an out-of-range numeral such as 1e400 parses to is not modelled. */
module JsValues {
  import opened Wrappers
  import Numerals

  datatype JsValue = Undefined | Null | Bool(b: bool) | Num(n: real) | Str(s: string)

  /** JavaScript truthiness: undefined, null, false, 0 and "" are falsy. */
  predicate Truthy(v: JsValue) {
    match v
    case Undefined => false
    case Null => false
    case Bool(b) => b
    case Num(n) => n != 0.0
    case Str(s) => s != ""
  }

  /** The falsy values are exactly undefined, null, false, 0 and "". */
  lemma FalsyValues(v: JsValue)
    ensures !Truthy(v) <==> v == Undefined || v == Null || v == Bool(false) || v == Num(0.0) || v == Str("")
  {
  }

  /** `v == null`, which holds for null and for a missing field. */
  predicate IsNullish(v: JsValue) {
    v.Undefined? || v.Null?
  }

  /** `v || d`: the value itself when truthy, the default otherwise. */
  function Or(v: JsValue, d: JsValue): (r: JsValue)
    ensures Truthy(v) ==> r == v
    ensures !Truthy(v) ==> r == d
    ensures Truthy(d) ==> Truthy(r)
    ensures Truthy(r) ==> r == v || r == d
  {
    if Truthy(v) then v else d
  }

  /** Truncation toward zero. */
  function Trunc(x: real): (r: int)
    ensures 0.0 <= x ==> r as real <= x < r as real + 1.0
    ensures x < 0.0 ==> r as real - 1.0 < x <= r as real
    ensures (r < 0 ==> x < 0.0) && (r > 0 ==> x > 0.0)
  {
    if x >= 0.0 then x.Floor else -((-x).Floor)
  }

  /** Global parseInt applied to a request value: a number is truncated toward
      zero, a string is parsed as a numeral, anything else reads as NaN
      ("undefined", "null", "true" and "false" contain no digits). */
  function ParseInt(v: JsValue): (r: Option<int>)
    ensures r.Some? ==> v.Num? || v.Str?
    ensures v.Num? ==> r.Some? && -1.0 < v.n - r.value as real < 1.0
    ensures v.Num? && 0.0 <= v.n ==> r.value as real <= v.n < r.value as real + 1.0
    ensures v.Num? && v.n < 0.0 ==> r.value as real - 1.0 < v.n <= r.value as real
  {
    match v
    case Num(n) => Some(Trunc(n))
    case Str(s) => Numerals.ParseIntText(s)
    case _ => None
  }

  /** A whole number parses to itself. */
  lemma ParseIntOfWholeNumber(n: int)
    ensures ParseInt(Num(n as real)) == Some(n)
  {
  }

  /** Global parseFloat applied to a request value. */
  function ParseFloat(v: JsValue): (r: Option<real>)
    ensures r.Some? ==> v.Num? || v.Str?
    ensures v.Num? ==> r == Some(v.n)
  {
    match v
    case Num(n) => Some(n)
    case Str(s) => Numerals.ParseFloatText(s)
    case _ => None
  }

  /** `parseInt(v) || d`: NaN and 0 both fall back to the default. */
  function IntOr(v: JsValue, d: int): (r: int)
    ensures r != d ==> ParseInt(v) == Some(r) && r != 0
    ensures ParseInt(v).Some? && ParseInt(v).value != 0 ==> r == ParseInt(v).value
  {
    match ParseInt(v)
    case Some(n) => if n != 0 then n else d
    case None => d
  }

  /** `parseFloat(v) || d`: NaN and 0 both fall back to the default. */
  function RealOr(v: JsValue, d: real): (r: real)
    ensures r != d ==> ParseFloat(v) == Some(r) && r != 0.0
    ensures ParseFloat(v).Some? && ParseFloat(v).value != 0.0 ==> r == ParseFloat(v).value
  {
    match ParseFloat(v)
    case Some(x) => if x != 0.0 then x else d
    case None => d
  }

  /** A falsy field (missing, null, false, 0 or "") always takes the default,
      for parseInt and for parseFloat alike. */
  lemma FalsyTakesDefault(v: JsValue, d: int, e: real)
    requires !Truthy(v)
    ensures IntOr(v, d) == d
    ensures RealOr(v, e) == e
  {
    if v.Str? {
      assert v.s == "";
      assert Numerals.DigitRun([], 10) == 0;
    }
  }

  /** A decimal string holding a non-zero integer survives `parseInt(.) || d`. */
  lemma IntOrReadsNumeral(n: int, d: int)
    requires n != 0
    ensures IntOr(Str(Numerals.IntToText(n)), d) == n
    ensures RealOr(Str(Numerals.IntToText(n)), d as real) == n as real
  {
    var v := Str(Numerals.IntToText(n));
    Numerals.ParseIntRoundTrip(n);
    assert ParseInt(v) == Some(n);
    Numerals.ParseFloatOfInteger(n);
    assert ParseFloat(v) == Some(n as real);
  }

  /** How a parse result travels in a JSON body: NaN is serialised as null. */
  function IntToJson(x: Option<int>): (v: JsValue)
    ensures IsNullish(v) <==> x.None?
    ensures x.Some? ==> ParseInt(v) == x
  {
    match x
    case Some(n) => Num(n as real)
    case None => Null
  }

  function RealToJson(x: Option<real>): (v: JsValue)
    ensures IsNullish(v) <==> x.None?
    ensures x.Some? ==> ParseFloat(v) == x
  {
    match x
    case Some(r) => Num(r)
    case None => Null
  }
}

=== FILE: numerals.dfy ===
/** The numeral grammar of JavaScript's global parseInt (radix omitted) and
    parseFloat, and the decimal rendering of integers they invert. A failed
    parse (JavaScript's NaN) is None. */
module Numerals {
  import opened Wrappers
  import Text

  /** Digit value of an ASCII letter or digit (0-9, then a/A = 10 ... z/Z = 35); 36 for anything else. */
  function DigitOf(c: char): nat {
    if '0' <= c <= '9' then c as int - '0' as int
    else if 'a' <= c <= 'z' then c as int - 'a' as int + 10
    else if 'A' <= c <= 'Z' then c as int - 'A' as int + 10
    else 36
  }

  predicate IsDigitIn(c: char, radix: nat) {
    DigitOf(c) < radix
  }

  /** Length of the longest prefix of `s` made of digits of `radix`. */
  function DigitRun(s: string, radix: nat): (k: nat)
    ensures k <= |s|
    ensures forall i :: 0 <= i < k ==> IsDigitIn(s[i], radix)
    ensures k < |s| ==> !IsDigitIn(s[k], radix)
  {
    if s != [] && IsDigitIn(s[0], radix) then 1 + DigitRun(s[1..], radix) else 0
  }

  predicate AllDigits(s: string, radix: nat) {
    forall i :: 0 <= i < |s| ==> IsDigitIn(s[i], radix)
  }

  predicate NoDigits(s: string, radix: nat) {
    forall i :: 0 <= i < |s| ==> !IsDigitIn(s[i], radix)
  }

  /** A suffix of a text without digits has none either. */
  lemma NoDigitsSuffix(s: string, i: nat, radix: nat)
    ensures i <= |s| && NoDigits(s, radix) ==> NoDigits(s[i..], radix)
  {
    if i <= |s| && NoDigits(s, radix) {
      forall j | 0 <= j < |s| - i
        ensures !IsDigitIn(s[i..][j], radix)
      {
        assert s[i..][j] == s[i + j];
      }
    }
  }

  /** Value of a digit string, most significant digit first. */
  function Value(digits: string, radix: nat): nat
    requires AllDigits(digits, radix)
  {
    if digits == [] then 0
    else Value(digits[..|digits| - 1], radix) * radix + DigitOf(digits[|digits| - 1])
  }

  /** Splits an optional leading '-' or '+' off `s`. */
  function SplitSign(s: string): (r: (bool, string))
    ensures |r.1| <= |s|
    ensures r.1 == s[|s| - |r.1|..]
  {
    if s != [] && s[0] == '-' then (true, s[1..])
    else if s != [] && s[0] == '+' then (false, s[1..])
    else (false, s)
  }

  /** parseInt(s) with the radix argument omitted: leading whitespace, an
      optional sign, then a "0x"/"0X" prefix selecting base 16 or else base 10,
      then the longest run of digits of that base. No digits gives NaN. */
  function ParseIntText(s: string): (r: Option<int>)
    ensures NoDigits(s, 16) ==> r.None?
    ensures r.Some? && r.value < 0 ==> '-' in s
  {
    var (negative, unsigned) := SplitSign(s[Text.LeadingSpaces(s)..]);
    var hex := |unsigned| >= 2 && unsigned[0] == '0' && (unsigned[1] == 'x' || unsigned[1] == 'X');
    var radix := if hex then 16 else 10;
    var body := if hex then unsigned[2..] else unsigned;
    var k := DigitRun(body, radix);
    if k == 0 then None
    else
      var magnitude: int := Value(body[..k], radix);
      Some(if negative then -magnitude else magnitude)
  }

  /** 10 raised to an integer power. */
  function Pow10(e: int): (r: real)
    ensures r > 0.0
    decreases if e < 0 then -e else e
  {
    if e == 0 then 1.0
    else if e > 0 then 10.0 * Pow10(e - 1)
    else Pow10(e + 1) / 10.0
  }

  /** The exponent part "e[sign]digits" at the start of `s`, or 0 when absent or incomplete. */
  function ExponentPrefix(s: string): int
  {
    if s != [] && (s[0] == 'e' || s[0] == 'E') then
      var (negative, digits) := SplitSign(s[1..]);
      var k := DigitRun(digits, 10);
      if k == 0 then 0
      else if negative then -(Value(digits[..k], 10) as int)
      else Value(digits[..k], 10)
    else 0
  }

  /** parseFloat(s): leading whitespace, an optional sign, then the longest
      prefix of the form digits [ "." digits ] [ exponent ] with at least one
      mantissa digit. No mantissa digit gives NaN. */
  function ParseFloatText(s: string): (r: Option<real>)
    ensures NoDigits(s, 10) ==> r.None?
  {
    var lead := Text.LeadingSpaces(s);
    var (negative, unsigned) := SplitSign(s[lead..]);
    NoDigitsSuffix(s, lead, 10);
    NoDigitsSuffix(s[lead..], |s[lead..]| - |unsigned|, 10);
    match UnsignedFloat(unsigned)
    case None => None
    case Some(magnitude) => Some(if negative then -magnitude else magnitude)
  }

  /** The unsigned part of a parseFloat numeral. */
  function UnsignedFloat(unsigned: string): (r: Option<real>)
    ensures NoDigits(unsigned, 10) ==> r.None?
  {
    var k1 := DigitRun(unsigned, 10);
    var afterInt := unsigned[k1..];
    var hasPoint := afterInt != [] && afterInt[0] == '.';
    var fraction := if hasPoint then afterInt[1..] else [];
    NoDigitsSuffix(unsigned, k1 + 1, 10);
    var k2 := DigitRun(fraction, 10);
    if k1 == 0 && k2 == 0 then None
    else
      var rest := if hasPoint then fraction[k2..] else afterInt;
      var mantissa := Value(unsigned[..k1], 10) as real + Value(fraction[..k2], 10) as real / Pow10(k2);
      Some(mantissa * Pow10(ExponentPrefix(rest)))
  }

  function DigitChar(d: nat): (c: char)
    requires d < 10
    ensures IsDigitIn(c, 10) && DigitOf(c) == d
  {
    ('0' as int + d) as char
  }

  /** Decimal digits of a natural number, without leading zeros. */
  function NatText(n: nat): (s: string)
    ensures s != []
    ensures AllDigits(s, 10)
    ensures |s| > 1 ==> s[0] != '0'
  {
    if n < 10 then [DigitChar(n)] else NatText(n / 10) + [DigitChar(n % 10)]
  }

  /** String(n) for an integer n: an optional '-' then decimal digits. */
  function IntToText(n: int): (r: string)
    ensures r != [] && (r[0] == '-' <==> n < 0)
    ensures forall i :: 0 <= i < |r| && (i > 0 || n >= 0) ==> IsDigitIn(r[i], 10)
    ensures |r| > 1 && n >= 0 ==> r[0] != '0'
  {
    if n < 0 then "-" + NatText(-n) else NatText(n)
  }

  /** Reading back the digits of NatText(n) gives n. */
  lemma {:induction false} NatTextValue(n: nat)
    ensures Value(NatText(n), 10) == n
  {
    var s := NatText(n);
    if n >= 10 {
      NatTextValue(n / 10);
      assert s[..|s| - 1] == NatText(n / 10);
    }
  }

  /** A string made only of digits is consumed entirely by DigitRun. */
  lemma DigitRunAll(s: string, radix: nat)
    requires AllDigits(s, radix)
    ensures DigitRun(s, radix) == |s|
  {
  }

  /** parseInt inverts the decimal rendering of every integer. */
  lemma ParseIntRoundTrip(n: int)
    ensures ParseIntText(IntToText(n)) == Some(n)
  {
    var m: nat := if n < 0 then -n else n;
    var s := IntToText(n);
    var digits := NatText(m);
    assert Text.LeadingSpaces(s) == 0 by {
      assert s[0] == '-' || IsDigitIn(s[0], 10);
    }
    assert s[0..] == s;
    assert SplitSign(s) == (n < 0, digits) by {
      if n < 0 { assert s[1..] == digits; }
    }
    assert !(|digits| >= 2 && digits[0] == '0');
    DigitRunAll(digits, 10);
    assert digits[..|digits|] == digits;
    NatTextValue(m);
  }

  /** parseFloat reads the decimal rendering of an integer as that integer. */
  lemma ParseFloatOfInteger(n: int)
    ensures ParseFloatText(IntToText(n)) == Some(n as real)
  {
    var m: nat := if n < 0 then -n else n;
    var s := IntToText(n);
    var digits := NatText(m);
    assert Text.LeadingSpaces(s) == 0 by {
      assert s[0] == '-' || IsDigitIn(s[0], 10);
    }
    assert s[0..] == s;
    assert SplitSign(s) == (n < 0, digits) by {
      if n < 0 { assert s[1..] == digits; }
    }
    DigitRunAll(digits, 10);
    assert digits[..|digits|] == digits;
    assert digits[|digits|..] == [];
    NatTextValue(m);
    assert ExponentPrefix([]) == 0;
    assert Value([], 10) == 0;
  }
}

=== FILE: predict_route.dfy ===
/** The authenticated prediction and purchase endpoints of the server: input
    validation and defaulting, the call to the ML service (its answer is a
    parameter), risk classification, the composed explanation and
    recommendation, and best-effort storage (its outcome is a parameter). */
module PredictRoute {
  import opened Wrappers
  import opened JsValues
  import opened Composer
  import Text
  import Features

  /** The fields of a prediction request body; a missing field is Undefined. */
  datatype PredictRequest = PredictRequest(
    age: JsValue,
    gender: JsValue,
    bmi: JsValue,
    smoker: JsValue,
    numDependents: JsValue,
    region: JsValue,
    existingConditions: JsValue,
    incomeLakhs: JsValue,
    geneticalRisk: JsValue,
    insurancePlan: JsValue,
    employmentStatus: JsValue,
    maritalStatus: JsValue)

  /** The body posted to the ML service. NaN parses are None (sent as null). */
  datatype MlPayload = MlPayload(
    age: Option<int>,
    gender: JsValue,
    bmi: Option<real>,
    smoker: int,
    numDependents: int,
    region: JsValue,
    existingConditions: JsValue,
    incomeLakhs: real,
    insurancePlan: int,
    geneticalRisk: int,
    maritalStatus: JsValue,
    employmentStatus: JsValue)

  /** Parses and defaults the request for the ML service. */
  function Payload(req: PredictRequest): (m: MlPayload)
    ensures m.age == ParseInt(req.age) && m.bmi == ParseFloat(req.bmi)
    ensures m.smoker == IntOr(req.smoker, 0) && m.numDependents == IntOr(req.numDependents, 0)
    ensures m.incomeLakhs == RealOr(req.incomeLakhs, 5.0)
    ensures m.insurancePlan == IntOr(req.insurancePlan, 1) && m.geneticalRisk == IntOr(req.geneticalRisk, 0)
    ensures Truthy(req.gender) ==> m.gender == req.gender
    ensures !Truthy(req.gender) ==> m.gender == Str("male")
    ensures Truthy(req.region) ==> m.region == req.region
    ensures !Truthy(req.region) ==> m.region == Str("northeast")
    ensures Truthy(req.existingConditions) ==> m.existingConditions == req.existingConditions
    ensures !Truthy(req.existingConditions) ==> m.existingConditions == Str("")
    ensures Truthy(req.maritalStatus) ==> m.maritalStatus == req.maritalStatus
    ensures !Truthy(req.maritalStatus) ==> m.maritalStatus == Str("married")
    ensures Truthy(req.employmentStatus) ==> m.employmentStatus == req.employmentStatus
    ensures !Truthy(req.employmentStatus) ==> m.employmentStatus == Str("salaried")
  {
    MlPayload(
      ParseInt(req.age),
      Or(req.gender, Str("male")),
      ParseFloat(req.bmi),
      IntOr(req.smoker, 0),
      IntOr(req.numDependents, 0),
      Or(req.region, Str("northeast")),
      Or(req.existingConditions, Str("")),
      RealOr(req.incomeLakhs, 5.0),
      IntOr(req.insurancePlan, 1),
      IntOr(req.geneticalRisk, 0),
      Or(req.maritalStatus, Str("married")),
      Or(req.employmentStatus, Str("salaried")))
  }

  /** A request that sends only age and BMI gets every documented default. */
  lemma PayloadDefaults(age: JsValue, bmi: JsValue)
    ensures var m := Payload(PredictRequest(age, Undefined, bmi, Undefined, Undefined, Undefined,
                                            Undefined, Undefined, Undefined, Undefined, Undefined, Undefined));
      && m.gender == Str("male") && m.smoker == 0 && m.numDependents == 0
      && m.region == Str("northeast") && m.existingConditions == Str("")
      && m.incomeLakhs == 5.0 && m.insurancePlan == 1 && m.geneticalRisk == 0
      && m.maritalStatus == Str("married") && m.employmentStatus == Str("salaried")
  {
  }

  /** The server's defaults are the ones the ML service declares for the same
      fields, so leaving a field out means the same thing on both sides. */
  lemma DefaultsAgree(age: JsValue, bmi: JsValue, mlAge: int)
    ensures var m := Payload(PredictRequest(age, Undefined, bmi, Undefined, Undefined, Undefined,
                                            Undefined, Undefined, Undefined, Undefined, Undefined, Undefined));
      var d := Features.DefaultInput(mlAge);
      && m.gender == Str(d.gender) && m.smoker == d.smoker && m.numDependents == d.numDependents
      && m.region == Str(d.region) && m.existingConditions == Str(d.existingConditions)
      && m.incomeLakhs == d.incomeLakhs && m.insurancePlan == d.insurancePlan
      && m.geneticalRisk == d.geneticalRisk
      && m.maritalStatus == Str(d.maritalStatus) && m.employmentStatus == Str(d.employmentStatus)
  {
    PayloadDefaults(age, bmi);
  }

  /** `existing_conditions || ""` followed by `.trim()`: a truthy value that is
      not a string has no trim method and the handler fails (None). */
  function ConditionsText(v: JsValue): (r: Option<string>)
    ensures r.None? <==> Truthy(v) && !v.Str?
    ensures v.Str? ==> r == Some(v.s)
    ensures !Truthy(v) ==> r == Some("")
  {
    if !Truthy(v) then Some("")
    else if v.Str? then Some(v.s)
    else None
  }

  /** The profile the composer reads, given the conditions text: the same
      parses and defaults as the ML payload. */
  function ProfileOf(req: PredictRequest, conditions: string): (p: Profile)
    ensures var m := Payload(req);
      && p.age == m.age && p.bmi == m.bmi && p.smoker == m.smoker && p.dependents == m.numDependents
      && p.income == m.incomeLakhs && p.genetic == m.geneticalRisk && p.plan == m.insurancePlan
      && p.employment == m.employmentStatus && p.marital == m.maritalStatus
      && p.conditions == conditions
  {
    Profile(
      ParseInt(req.age),
      ParseFloat(req.bmi),
      IntOr(req.smoker, 0),
      IntOr(req.numDependents, 0),
      conditions,
      RealOr(req.incomeLakhs, 5.0),
      IntOr(req.geneticalRisk, 0),
      IntOr(req.insurancePlan, 1),
      Or(req.employmentStatus, Str("salaried")),
      Or(req.maritalStatus, Str("married")))
  }

  /** What the ML service answers: a premium, an error response, or nothing at all. */
  datatype MlAnswer = Premium(value: real) | ServiceError(detail: string) | NoResponse

  /** What the database answers to an insert. */
  datatype StoreAnswer = Saved(insertId: int) | StoreFailed

  /** The prediction returned to the client. Raw request fields are echoed as sent. */
  datatype Prediction = Prediction(
    id: Option<int>,
    premium: real,
    risk: Risk,
    age: JsValue,
    gender: JsValue,
    bmi: JsValue,
    smoker: int,
    numDependents: JsValue,
    region: JsValue,
    existingConditions: JsValue,
    incomeLakhs: real,
    geneticalRisk: int,
    insurancePlan: int,
    employmentStatus: JsValue,
    maritalStatus: JsValue,
    explanation: string,
    recommendation: string)

  datatype Reply =
    | Ok(prediction: Prediction)                     // 200
    | BadRequest(message: string)                    // 400
    | BadGateway(message: string, detail: string)    // 502
    | ServerError(message: string)                   // 500

  /** One request: the payload sent to the ML service, if any, and the reply. */
  datatype PredictCall = PredictCall(mlRequest: Option<MlPayload>, reply: Reply)

  predicate MissingAgeOrBmi(req: PredictRequest) {
    IsNullish(req.age) || IsNullish(req.bmi)
  }

  /** POST /predict. `realText` is JavaScript's number-to-string for the income sentence. */
  function Predict(req: PredictRequest, ml: MlAnswer, store: StoreAnswer, realText: real -> string): (c: PredictCall)
    ensures c.reply.BadRequest? <==> MissingAgeOrBmi(req)
    ensures c.mlRequest.None? <==> MissingAgeOrBmi(req)
    ensures c.mlRequest.Some? ==> c.mlRequest.value == Payload(req)
    ensures c.reply.BadGateway? <==> !MissingAgeOrBmi(req) && ml.ServiceError?
    ensures c.reply.BadGateway? ==> c.reply.detail == ml.detail
    ensures c.reply.Ok? <==>
      !MissingAgeOrBmi(req) && ml.Premium? && ConditionsText(req.existingConditions).Some?
    ensures c.reply.Ok? ==>
      var p := c.reply.prediction;
      && p.premium == ml.value
      && p.risk == Classify(ml.value)
      && (p.id.Some? <==> store.Saved?)
      && (store.Saved? ==> p.id == Some(store.insertId))
      && p.smoker == IntOr(req.smoker, 0)
      && p.incomeLakhs == RealOr(req.incomeLakhs, 5.0)
      && p.geneticalRisk == IntOr(req.geneticalRisk, 0)
      && p.insurancePlan == IntOr(req.insurancePlan, 1)
      && p.employmentStatus == Or(req.employmentStatus, Str("salaried"))
      && p.maritalStatus == Or(req.maritalStatus, Str("married"))
      && p.age == req.age && p.bmi == req.bmi && p.gender == req.gender && p.region == req.region
      && p.numDependents == req.numDependents && p.existingConditions == req.existingConditions
      && var profile := ProfileOf(req, ConditionsText(req.existingConditions).value);
         && p.explanation == ExplanationText(profile, realText)
         && p.recommendation == RecommendationText(profile, p.risk)
  {
    if MissingAgeOrBmi(req) then
      PredictCall(None, BadRequest("Age and BMI are required."))
    else
      var payload := Payload(req);
      match ml
      case ServiceError(detail) => PredictCall(Some(payload), BadGateway("ML service error.", detail))
      case NoResponse => PredictCall(Some(payload), ServerError("Server error."))
      case Premium(premium) =>
        match ConditionsText(req.existingConditions)
        case None => PredictCall(Some(payload), ServerError("Server error."))
        case Some(conditions) =>
          var id := if store.Saved? then Some(store.insertId) else None;
          PredictCall(Some(payload), Ok(Answer(req, premium, id,
            ExplanationText(ProfileOf(req, conditions), realText),
            RecommendationText(ProfileOf(req, conditions), Classify(premium)))))
  }

  /** The 200 body: the premium and its tier, the composed texts, the stored
      id, the parsed and defaulted numbers and the raw fields as sent. */
  function Answer(req: PredictRequest, premium: real, id: Option<int>,
                  explanation: string, recommendation: string): (p: Prediction)
    ensures p.id == id && p.premium == premium && p.risk == Classify(premium)
    ensures p.smoker == IntOr(req.smoker, 0) && p.incomeLakhs == RealOr(req.incomeLakhs, 5.0)
    ensures p.geneticalRisk == IntOr(req.geneticalRisk, 0) && p.insurancePlan == IntOr(req.insurancePlan, 1)
    ensures p.employmentStatus == Or(req.employmentStatus, Str("salaried"))
    ensures p.maritalStatus == Or(req.maritalStatus, Str("married"))
    ensures p.age == req.age && p.bmi == req.bmi && p.gender == req.gender && p.region == req.region
    ensures p.numDependents == req.numDependents && p.existingConditions == req.existingConditions
    ensures p.explanation == explanation && p.recommendation == recommendation
  {
    var risk := Classify(premium);
    Prediction(
      id, premium, risk,
      req.age, req.gender, req.bmi,
      IntOr(req.smoker, 0),
      req.numDependents, req.region, req.existingConditions,
      RealOr(req.incomeLakhs, 5.0),
      IntOr(req.geneticalRisk, 0),
      IntOr(req.insurancePlan, 1),
      Or(req.employmentStatus, Str("salaried")),
      Or(req.maritalStatus, Str("married")),
      explanation,
      recommendation)
  }

  /** A failed insert changes nothing the client sees except that the id is null. */
  lemma StorageFailureInvisible(req: PredictRequest, ml: MlAnswer, s: StoreAnswer, realText: real -> string)
    ensures var saved := Predict(req, ml, s, realText);
            var failed := Predict(req, ml, StoreFailed, realText);
      && saved.mlRequest == failed.mlRequest
      && (saved.reply.Ok? <==> failed.reply.Ok?)
      && (!saved.reply.Ok? ==> saved.reply == failed.reply)
      && (saved.reply.Ok? ==>
            failed.reply.prediction.id.None? && saved.reply.prediction.(id := None) == failed.reply.prediction)
  {
  }

  /** The explanation opens with the age sentence; the recommendation opens with
      the age advice and closes with the sentence for the computed risk tier. */
  lemma PredictionTexts(req: PredictRequest, ml: MlAnswer, store: StoreAnswer, realText: real -> string)
    requires !MissingAgeOrBmi(req) && ml.Premium? && ConditionsText(req.existingConditions).Some?
    ensures var p := Predict(req, ml, store, realText).reply.prediction;
      var age := ParseInt(req.age);
      var closing := AdviceText(RiskAdvice(p.risk));
      && ReasonText(AgeReason(BracketOf(age), age), realText) <= p.explanation
      && AdviceText(AgeAdvice(BracketOf(age))) <= p.recommendation
      && Text.EndsWith(p.recommendation, closing)
  {
    var profile := ProfileOf(req, ConditionsText(req.existingConditions).value);
    var risk := Classify(ml.value);
    var p := Predict(req, ml, store, realText).reply.prediction;
    assert p.explanation == ExplanationText(profile, realText);
    assert p.recommendation == RecommendationText(profile, risk);
    ExplanationOpensWithAge(profile, realText);
    RecommendationFrame(profile, risk);
  }

  /** The worked example: age 45, BMI 31, regular smoker, two dependents,
      diabetes, income 4 lakhs, genetical risk 4, plan 1, freelancer, unmarried. */
  const WorkedRequest := PredictRequest(
    Num(45.0), Undefined, Num(31.0), Num(2.0), Num(2.0), Undefined, Str("Diabetes"),
    Num(4.0), Num(4.0), Num(1.0), Str("freelancer"), Str("unmarried"))

  /** The worked request reaches the composer with every field as sent. */
  lemma WorkedProfile()
    ensures ProfileOf(WorkedRequest, "Diabetes")
         == Profile(Some(45), Some(31.0), 2, 2, "Diabetes", 4.0, 4, 1, Str("freelancer"), Str("unmarried"))
  {
  }

  /** With the ML service answering 12000 the worked request is answered with
      High risk, whatever the database does. */
  lemma WorkedExample(store: StoreAnswer, realText: real -> string)
    ensures var c := Predict(WorkedRequest, Premium(12000.0), store, realText);
      && c.mlRequest.Some?
      && c.reply.Ok?
      && c.reply.prediction.risk == High
  {
  }

  /** Fields of a purchase request body. */
  datatype PurchaseRequest = PurchaseRequest(
    predictionId: JsValue,
    planName: JsValue,
    coverageAmount: JsValue,
    premiumAmount: JsValue,
    durationYears: JsValue)

  datatype Purchase = Purchase(
    id: int,
    planName: JsValue,
    coverageAmount: JsValue,
    premiumAmount: JsValue,
    durationYears: JsValue,
    status: string,
    purchasedAt: string)

  datatype PurchaseReply = Purchased(message: string, purchase: Purchase) | PurchaseRejected(message: string)

  /** POST /purchase. `clockId` is Date.now() at the time of the call, used as
      the id when the insert fails; `timestamp` is the current time as ISO text. */
  function MakePurchase(req: PurchaseRequest, store: StoreAnswer, clockId: int, timestamp: string): (r: PurchaseReply)
    ensures r.PurchaseRejected? <==>
      !Truthy(req.planName) || !Truthy(req.coverageAmount) || !Truthy(req.premiumAmount)
    ensures r.Purchased? ==>
      && r.purchase.status == "active"
      && (Truthy(req.durationYears) ==> r.purchase.durationYears == req.durationYears)
      && (!Truthy(req.durationYears) ==> r.purchase.durationYears == Num(1.0))
      && r.purchase.id == (if store.Saved? then store.insertId else clockId)
      && r.purchase.planName == req.planName
      && r.purchase.coverageAmount == req.coverageAmount
      && r.purchase.premiumAmount == req.premiumAmount
  {
    if !Truthy(req.planName) || !Truthy(req.coverageAmount) || !Truthy(req.premiumAmount) then
      PurchaseRejected("Plan name, coverage amount, and premium amount are required.")
    else
      var id := if store.Saved? then store.insertId else clockId;
      Purchased("Insurance purchased successfully!", Purchase(
        id, req.planName, req.coverageAmount, req.premiumAmount,
        Or(req.durationYears, Num(1.0)), "active", timestamp))
  }

  /** A failed insert still confirms the purchase; only the id differs. */
  lemma PurchaseStorageFailureInvisible(req: PurchaseRequest, s: StoreAnswer, clockId: int, timestamp: string)
    ensures var saved := MakePurchase(req, s, clockId, timestamp);
            var failed := MakePurchase(req, StoreFailed, clockId, timestamp);
      && (saved.Purchased? <==> failed.Purchased?)
      && (saved.PurchaseRejected? ==> saved == failed)
      && (saved.Purchased? ==> saved.purchase.(id := clockId) == failed.purchase)
      && (failed.Purchased? ==> failed.purchase.durationYears == Or(req.durationYears, Num(1.0)))
  {
  }
}

=== FILE: prediction_form.dfy ===
/** The client's prediction form: the medical-history buttons and the
    comma-joined conditions text they maintain, the free-text conditions box,
    and the required-field guard that turns the form into a request body. */
module PredictionForm {
  import opened Wrappers
  import opened JsValues
  import Text
  import Seqs
  import Numerals
  import PredictRoute

  const NoDisease: string := "No Disease"

  /** The condition buttons, in display order. */
  const Presets: seq<string> := ["Diabetes", "Heart Disease", "High Blood Pressure", "Thyroid", "Asthma", NoDisease]

  /** The form state; every input holds the text the user typed or selected. */
  datatype Form = Form(
    age: string,
    gender: string,
    bmi: string,
    smoker: string,
    numDependents: string,
    region: string,
    conditions: string,
    incomeLakhs: string,
    geneticalRisk: string,
    insurancePlan: string,
    employmentStatus: string,
    maritalStatus: string,
    history: seq<string>)

  const Initial: Form := Form("", "male", "", "0", "0", "northeast", "", "", "0", "1", "salaried", "married", [])

  /** The history never repeats an entry, and "No Disease" stands alone. */
  predicate Valid(f: Form) {
    Seqs.NoDuplicates(f.history) && (NoDisease in f.history ==> f.history == [NoDisease])
  }

  lemma InitialValid()
    ensures Valid(Initial) && Initial.history == []
  {
  }

  /** The history with "No Disease" and `condition` dropped. */
  function Without(history: seq<string>, condition: string): seq<string> {
    Seqs.Filter(history, c => c != NoDisease && c != condition)
  }

  /** A press of a condition button. "No Disease" replaces everything and
      clears the text; any other condition first drops "No Disease", then is
      removed when present or appended when absent, and the text becomes the
      history joined with ", ". */
  function Toggle(f: Form, condition: string): (g: Form)
    ensures g == f.(history := g.history, conditions := g.conditions)
    ensures condition == NoDisease ==> g.history == [NoDisease] && g.conditions == ""
    ensures condition != NoDisease ==>
      && NoDisease !in g.history
      && g.conditions == Text.Join(g.history, ", ")
      && (condition in g.history <==> condition !in f.history)
      && (forall c :: c != condition ==> (c in g.history <==> c in f.history && c != NoDisease))
    ensures condition != NoDisease && condition !in f.history ==>
      g.history == Without(f.history, condition) + [condition]
    ensures condition != NoDisease && condition in f.history ==>
      g.history == Without(f.history, condition) && Seqs.Subsequence(g.history, f.history)
  {
    if condition == NoDisease then
      f.(history := [NoDisease], conditions := "")
    else
      var updated := Seqs.Filter(f.history, c => c != NoDisease);
      var next :=
        if condition in updated then Seqs.Filter(updated, c => c != condition)
        else updated + [condition];
      SameFilter(f.history, condition);
      f.(history := next, conditions := Text.Join(next, ", "))
  }

  /** Dropping "No Disease" and then `condition` is dropping both at once. */
  lemma {:induction false} SameFilter(history: seq<string>, condition: string)
    ensures Seqs.Filter(Seqs.Filter(history, c => c != NoDisease), c => c != condition) == Without(history, condition)
    ensures condition !in history && condition != NoDisease ==>
      Seqs.Filter(history, c => c != NoDisease) == Without(history, condition)
  {
    if history != [] {
      SameFilter(history[1..], condition);
    }
  }

  /** Every button press keeps the form valid. */
  lemma ToggleValid(f: Form, condition: string)
    requires Valid(f)
    ensures Valid(Toggle(f, condition))
  {
    if condition != NoDisease {
      var w := Without(f.history, condition);
      Seqs.FilterNoDuplicates(f.history, c => c != NoDisease && c != condition);
      if condition !in f.history {
        assert condition !in w;
        Seqs.AppendNoDuplicates(w, condition);
      }
    }
  }

  /** Pressing an unselected condition twice gives the history back, and the
      text becomes that history joined. */
  lemma ToggleTwiceRestores(f: Form, condition: string)
    requires Valid(f) && NoDisease !in f.history
    requires condition != NoDisease && condition !in f.history
    ensures Toggle(Toggle(f, condition), condition).history == f.history
    ensures Toggle(Toggle(f, condition), condition).conditions == Text.Join(f.history, ", ")
  {
    var g := Toggle(f, condition);
    Seqs.FilterKeepsAll(f.history, c => c != NoDisease && c != condition);
    assert g.history == f.history + [condition];
    var h := Toggle(g, condition);
    Seqs.FilterConcat(f.history, [condition], c => c != NoDisease && c != condition);
    assert Without([condition], condition) == [];
    assert h.history == f.history;
  }

  /** Pressing a selected condition twice moves it to the end of the history. */
  lemma ToggleTwiceMovesToEnd(f: Form, condition: string)
    requires Valid(f) && NoDisease !in f.history
    requires condition != NoDisease && condition in f.history
    ensures Toggle(Toggle(f, condition), condition).history == Without(f.history, condition) + [condition]
  {
    var g := Toggle(f, condition);
    var w := Without(f.history, condition);
    assert g.history == w;
    assert condition !in w;
    Seqs.FilterKeepsAll(w, c => c != NoDisease && c != condition);
  }

  /** Typing in the conditions box: the text is taken as typed and every
      preset condition except "No Disease" leaves the history. */
  function EditConditions(f: Form, text: string): (g: Form)
    ensures g == f.(history := g.history, conditions := text)
    ensures Seqs.Subsequence(g.history, f.history)
    ensures forall c :: c in g.history <==> c in f.history && (c !in Presets || c == NoDisease)
  {
    f.(conditions := text, history := Seqs.Filter(f.history, c => c !in Presets || c == NoDisease))
  }

  /** Typing keeps the form valid. */
  lemma EditConditionsValid(f: Form, text: string)
    requires Valid(f)
    ensures Valid(EditConditions(f, text))
  {
    var h := EditConditions(f, text).history;
    Seqs.FilterNoDuplicates(f.history, c => c !in Presets || c == NoDisease);
    if NoDisease in f.history {
      assert f.history == [NoDisease];
      assert h == [NoDisease];
    }
  }

  /** Typing over a history of buttons leaves it empty, or exactly "No Disease". */
  lemma EditConditionsClearsPresets(f: Form, text: string)
    requires Valid(f)
    requires forall c :: c in f.history ==> c in Presets
    ensures var h := EditConditions(f, text).history;
      h == [] || h == [NoDisease]
  {
    var h := EditConditions(f, text).history;
    if NoDisease in f.history {
      assert f.history == [NoDisease];
      assert h == [NoDisease];
    } else {
      Seqs.FilterKeepsNone(f.history, c => c !in Presets || c == NoDisease);
    }
  }

  /** What the conditions box shows: nothing while "No Disease" is selected. */
  function ShownConditions(f: Form): (shown: string)
    ensures NoDisease in f.history ==> shown == ""
    ensures NoDisease !in f.history ==> shown == f.conditions
  {
    if NoDisease in f.history then "" else f.conditions
  }

  /** What the box shows after each kind of input: blank after "No Disease",
      the joined history after any other button, and the typed text after
      typing while "No Disease" is not selected. */
  lemma ShownConditionsFollows(f: Form, condition: string, text: string)
    ensures ShownConditions(Toggle(f, NoDisease)) == ""
    ensures condition != NoDisease ==>
      var g := Toggle(f, condition);
      ShownConditions(g) == Text.Join(g.history, ", ")
    ensures NoDisease !in f.history ==> ShownConditions(EditConditions(f, text)) == text
    ensures NoDisease in f.history ==> ShownConditions(EditConditions(f, text)) == ""
  {
  }

  /** handleSubmit: nothing is sent unless age, BMI and income are filled in;
      otherwise the numeric fields are parsed (a NaN travels as null). */
  function Submit(f: Form): (r: Option<PredictRoute.PredictRequest>)
    ensures r.None? <==> f.age == "" || f.bmi == "" || f.incomeLakhs == ""
    ensures r.Some? ==>
      && ParseInt(r.value.age) == Numerals.ParseIntText(f.age)
      && ParseFloat(r.value.bmi) == Numerals.ParseFloatText(f.bmi)
      && r.value.existingConditions == Str(f.conditions)
      && ParseInt(r.value.smoker) == Numerals.ParseIntText(f.smoker)
      && ParseInt(r.value.numDependents) == Numerals.ParseIntText(f.numDependents)
      && ParseInt(r.value.geneticalRisk) == Numerals.ParseIntText(f.geneticalRisk)
      && ParseInt(r.value.insurancePlan) == Numerals.ParseIntText(f.insurancePlan)
      && ParseFloat(r.value.incomeLakhs) == Numerals.ParseFloatText(f.incomeLakhs)
      && r.value.gender == Str(f.gender) && r.value.region == Str(f.region)
      && r.value.employmentStatus == Str(f.employmentStatus)
      && r.value.maritalStatus == Str(f.maritalStatus)
  {
    if f.age == "" || f.bmi == "" || f.incomeLakhs == "" then None
    else Some(PredictRoute.PredictRequest(
      IntToJson(Numerals.ParseIntText(f.age)),
      Str(f.gender),
      RealToJson(Numerals.ParseFloatText(f.bmi)),
      IntToJson(Numerals.ParseIntText(f.smoker)),
      IntToJson(Numerals.ParseIntText(f.numDependents)),
      Str(f.region),
      Str(f.conditions),
      RealToJson(Numerals.ParseFloatText(f.incomeLakhs)),
      IntToJson(Numerals.ParseIntText(f.geneticalRisk)),
      IntToJson(Numerals.ParseIntText(f.insurancePlan)),
      Str(f.employmentStatus),
      Str(f.maritalStatus)))
  }

  /** A submitted form is refused by the server exactly when its age or BMI
      text is not a number: the client guard only checks for emptiness. */
  lemma SubmitReachesServer(f: Form)
    requires f.age != "" && f.bmi != "" && f.incomeLakhs != ""
    ensures PredictRoute.MissingAgeOrBmi(Submit(f).value) <==>
      Numerals.ParseIntText(f.age).None? || Numerals.ParseFloatText(f.bmi).None?
  {
  }
}

=== FILE: seqs.dfy ===
/** Order-preserving filtering of sequences (JavaScript's Array.prototype.filter)
    and the facts about it that the client-side list operations rely on. */
module Seqs {

  /** `sub` can be obtained from `xs` by deleting elements, keeping the order of the rest. */
  predicate Subsequence<T(==)>(sub: seq<T>, xs: seq<T>)
    decreases |xs|
  {
    if sub == [] then true
    else if xs == [] then false
    else if sub[0] == xs[0] then Subsequence(sub[1..], xs[1..])
    else Subsequence(sub, xs[1..])
  }

  /** No element occurs twice. */
  predicate NoDuplicates<T(==)>(xs: seq<T>) {
    forall i, j :: 0 <= i < j < |xs| ==> xs[i] != xs[j]
  }

  /** The elements of `xs` that satisfy `keep`, in their original order. */
  function Filter<T(==,!new)>(xs: seq<T>, keep: T -> bool): (r: seq<T>)
    ensures Subsequence(r, xs)
    ensures forall x :: x in r <==> x in xs && keep(x)
    ensures |r| <= |xs|
    ensures forall x :: multiset(r)[x] == if keep(x) then multiset(xs)[x] else 0
  {
    if xs == [] then []
    else
      assert xs == [xs[0]] + xs[1..];
      if keep(xs[0]) then [xs[0]] + Filter(xs[1..], keep)
      else Filter(xs[1..], keep)
  }

  /** Predicates that agree on every element filter alike. */
  lemma {:induction false} FilterSameKeep<T(!new)>(xs: seq<T>, k1: T -> bool, k2: T -> bool)
    requires forall x :: x in xs ==> k1(x) == k2(x)
    ensures Filter(xs, k1) == Filter(xs, k2)
  {
    if xs != [] {
      assert xs[0] in xs;
      FilterSameKeep(xs[1..], k1, k2);
    }
  }

  /** Filtering with a predicate no element meets leaves nothing. */
  lemma {:induction false} FilterKeepsNone<T(!new)>(xs: seq<T>, keep: T -> bool)
    requires forall x :: x in xs ==> !keep(x)
    ensures Filter(xs, keep) == []
  {
    if xs != [] {
      assert xs[0] in xs;
      FilterKeepsNone(xs[1..], keep);
    }
  }

  /** Filtering with a predicate every element meets changes nothing. */
  lemma {:induction false} FilterKeepsAll<T(!new)>(xs: seq<T>, keep: T -> bool)
    requires forall x :: x in xs ==> keep(x)
    ensures Filter(xs, keep) == xs
  {
    if xs != [] {
      FilterKeepsAll(xs[1..], keep);
    }
  }

  /** Filtering distributes over concatenation. */
  lemma {:induction false} FilterConcat<T(!new)>(xs: seq<T>, ys: seq<T>, keep: T -> bool)
    ensures Filter(xs + ys, keep) == Filter(xs, keep) + Filter(ys, keep)
  {
    if xs == [] {
      assert xs + ys == ys;
    } else {
      assert (xs + ys)[1..] == xs[1..] + ys;
      FilterConcat(xs[1..], ys, keep);
    }
  }

  /** Filtering a duplicate-free sequence leaves it duplicate-free. */
  lemma {:induction false} FilterNoDuplicates<T(!new)>(xs: seq<T>, keep: T -> bool)
    requires NoDuplicates(xs)
    ensures NoDuplicates(Filter(xs, keep))
  {
    if xs != [] {
      NoDuplicatesTail(xs);
      FilterNoDuplicates(xs[1..], keep);
      if keep(xs[0]) {
        ConsNoDuplicates(xs[0], Filter(xs[1..], keep));
      }
    }
  }

  /** Two duplicate-free sequences with no element in common concatenate to one. */
  lemma ConcatNoDuplicates<T>(xs: seq<T>, ys: seq<T>)
    requires NoDuplicates(xs) && NoDuplicates(ys)
    requires forall x :: x in xs ==> x !in ys
    ensures NoDuplicates(xs + ys)
  {
    var r := xs + ys;
    forall i, j | 0 <= i < j < |r|
      ensures r[i] != r[j]
    {
      if j < |xs| {
        assert r[i] == xs[i] && r[j] == xs[j];
      } else if i < |xs| {
        assert r[i] == xs[i] && r[j] == ys[j - |xs|];
        assert r[i] in xs && r[j] in ys;
      } else {
        assert r[i] == ys[i - |xs|] && r[j] == ys[j - |xs|];
      }
    }
  }

  /** Prepending an element that is not yet present keeps a sequence duplicate-free. */
  lemma ConsNoDuplicates<T>(x: T, xs: seq<T>)
    requires NoDuplicates(xs)
    requires x !in xs
    ensures NoDuplicates([x] + xs)
  {
    var r := [x] + xs;
    forall i, j | 0 <= i < j < |r|
      ensures r[i] != r[j]
    {
      if i == 0 {
        assert r[j] == xs[j - 1];
      } else {
        assert r[i] == xs[i - 1] && r[j] == xs[j - 1];
      }
    }
  }

  /** Appending an element that is not yet present keeps a sequence duplicate-free. */
  lemma AppendNoDuplicates<T>(xs: seq<T>, x: T)
    requires NoDuplicates(xs)
    requires x !in xs
    ensures NoDuplicates(xs + [x])
  {
    var r := xs + [x];
    forall i, j | 0 <= i < j < |r|
      ensures r[i] != r[j]
    {
      if j == |xs| {
        assert r[i] == xs[i];
      } else {
        assert r[i] == xs[i] && r[j] == xs[j];
      }
    }
  }

  /** A duplicate-free sequence splits into a head absent from a duplicate-free tail. */
  lemma NoDuplicatesTail<T>(xs: seq<T>)
    requires NoDuplicates(xs) && xs != []
    ensures xs[0] !in xs[1..] && NoDuplicates(xs[1..])
  {
    var rest := xs[1..];
    forall i | 0 <= i < |rest| ensures rest[i] != xs[0] {
      assert rest[i] == xs[i + 1];
    }
    forall i, j | 0 <= i < j < |rest| ensures rest[i] != rest[j] {
      assert rest[i] == xs[i + 1] && rest[j] == xs[j + 1];
    }
  }
}

=== FILE: text.dfy ===
/** String helpers shared by the server, the ML service and the client:
    letter-case folding, whitespace trimming, substring search and joining. */
module Text {

  /** The characters JavaScript treats as WhiteSpace or LineTerminator; they are
      what String.prototype.trim removes and what parseInt/parseFloat skip. */
  predicate IsWhitespace(c: char) {
    || c == ' ' || c == '\t' || c == '\n' || c == '\r' || c == '\U{B}' || c == '\U{C}'
    || c == '\U{A0}' || c == '\U{1680}' || ('\U{2000}' <= c <= '\U{200A}')
    || c == '\U{2028}' || c == '\U{2029}' || c == '\U{202F}' || c == '\U{205F}'
    || c == '\U{3000}' || c == '\U{FEFF}'
  }

  predicate IsUpper(c: char) {
    'A' <= c <= 'Z'
  }

  /** Lower-cases one ASCII letter; every other character is left alone. */
  function LowerChar(c: char): (r: char)
    ensures !IsUpper(r)
    ensures !IsUpper(c) ==> r == c
  {
    if IsUpper(c) then (c as int + 32) as char else c
  }

  /** String.prototype.toLowerCase / str.lower(), restricted to ASCII letters. */
  function ToLower(s: string): (r: string)
    ensures |r| == |s|
    ensures forall i :: 0 <= i < |s| ==> r[i] == LowerChar(s[i])
  {
    if s == [] then [] else [LowerChar(s[0])] + ToLower(s[1..])
  }

  /** Lower-casing twice is lower-casing once. */
  lemma ToLowerIdempotent(s: string)
    ensures ToLower(ToLower(s)) == ToLower(s)
  {
  }

  /** Length of the longest all-whitespace prefix of `s`. */
  function LeadingSpaces(s: string): (k: nat)
    ensures k <= |s|
    ensures forall i :: 0 <= i < k ==> IsWhitespace(s[i])
    ensures k < |s| ==> !IsWhitespace(s[k])
  {
    if s != [] && IsWhitespace(s[0]) then 1 + LeadingSpaces(s[1..]) else 0
  }

  /** Start of the longest all-whitespace suffix of `s`. */
  function TrailingStart(s: string): (k: nat)
    ensures k <= |s|
    ensures forall i :: k <= i < |s| ==> IsWhitespace(s[i])
    ensures 0 < k ==> !IsWhitespace(s[k - 1])
  {
    if s != [] && IsWhitespace(s[|s| - 1]) then TrailingStart(s[..|s| - 1]) else |s|
  }

  /** String.prototype.trim: `s` without leading and trailing whitespace. */
  function Trim(s: string): (r: string)
    ensures |r| <= |s|
    ensures r == [] <==> forall i :: 0 <= i < |s| ==> IsWhitespace(s[i])
    ensures r != [] ==> !IsWhitespace(r[0]) && !IsWhitespace(r[|r| - 1])
    ensures LeadingSpaces(s) + |r| <= |s|
    ensures r == s[LeadingSpaces(s)..LeadingSpaces(s) + |r|]
    ensures forall i :: 0 <= i < LeadingSpaces(s) ==> IsWhitespace(s[i])
    ensures forall i :: LeadingSpaces(s) + |r| <= i < |s| ==> IsWhitespace(s[i])
  {
    var a := LeadingSpaces(s);
    var t := s[a..];
    var b := TrailingStart(t);
    ShiftedWhitespace(s, a, b);
    t[..b]
  }

  /** Whitespace from index `b` of the suffix `s[a..]` on is whitespace from
      index `a + b` of `s` on. */
  lemma ShiftedWhitespace(s: string, a: nat, b: nat)
    requires a <= |s|
    requires forall j :: b <= j < |s| - a ==> IsWhitespace(s[a..][j])
    ensures forall i :: a + b <= i < |s| ==> IsWhitespace(s[i])
  {
    forall i | a + b <= i < |s|
      ensures IsWhitespace(s[i])
    {
      assert s[i] == s[a..][i - a];
    }
  }

  /** Text without whitespace at either end is left as it is, so trimming twice is trimming once. */
  lemma TrimTrimmed(s: string)
    ensures s != [] && !IsWhitespace(s[0]) && !IsWhitespace(s[|s| - 1]) ==> Trim(s) == s
    ensures Trim(Trim(s)) == Trim(s)
  {
    if s != [] && !IsWhitespace(s[0]) && !IsWhitespace(s[|s| - 1]) {
      assert LeadingSpaces(s) == 0;
    }
    var r := Trim(s);
    if r != [] {
      assert LeadingSpaces(r) == 0;
    }
  }

  /** `needle` occurs in `hay` starting at index `i`. */
  predicate OccursAt(needle: string, hay: string, i: nat) {
    i + |needle| <= |hay| && hay[i..i + |needle|] == needle
  }

  ghost predicate IsSubstring(needle: string, hay: string) {
    exists i: nat :: OccursAt(needle, hay, i)
  }

  /** Shifting the search window one character to the right. */
  lemma SubstringOfTail(needle: string, hay: string)
    requires |needle| <= |hay| && hay[..|needle|] != needle
    ensures IsSubstring(needle, hay) <==> IsSubstring(needle, hay[1..])
  {
    if IsSubstring(needle, hay) {
      var i: nat :| OccursAt(needle, hay, i);
      assert i != 0;
      assert hay[1..][i - 1..i - 1 + |needle|] == hay[i..i + |needle|];
      assert OccursAt(needle, hay[1..], i - 1);
    }
    if IsSubstring(needle, hay[1..]) {
      var j: nat :| OccursAt(needle, hay[1..], j);
      assert hay[1..][j..j + |needle|] == hay[j + 1..j + 1 + |needle|];
      assert OccursAt(needle, hay, j + 1);
    }
  }

  /** String.prototype.includes / Python's `in` on strings. */
  function Includes(hay: string, needle: string): (b: bool)
    ensures b <==> IsSubstring(needle, hay)
    decreases |hay|
  {
    if |needle| > |hay| then
      false
    else if hay[..|needle|] == needle then
      assert OccursAt(needle, hay, 0);
      true
    else
      SubstringOfTail(needle, hay);
      Includes(hay[1..], needle)
  }

  /** The empty string occurs in every string. */
  lemma EmptyIncluded(hay: string)
    ensures Includes(hay, "")
  {
    assert OccursAt("", hay, 0);
  }

  /** Array.prototype.join: the parts with `sep` between neighbours. */
  function Join(parts: seq<string>, sep: string): string
  {
    if |parts| == 0 then ""
    else if |parts| == 1 then parts[0]
    else parts[0] + sep + Join(parts[1..], sep)
  }

  /** Joining with one more part at the end adds a separator and that part. */
  lemma {:induction false} JoinSnoc(parts: seq<string>, p: string, sep: string)
    ensures Join(parts + [p], sep) == if parts == [] then p else Join(parts, sep) + sep + p
  {
    if |parts| > 1 {
      assert (parts + [p])[1..] == parts[1..] + [p];
      JoinSnoc(parts[1..], p, sep);
    } else if |parts| == 1 {
      assert (parts + [p])[1..] == [p];
    }
  }

  predicate EndsWith(s: string, suffix: string) {
    |suffix| <= |s| && s[|s| - |suffix|..] == suffix
  }

  /** A joined string begins with its first part. */
  lemma JoinStartsWith(parts: seq<string>, sep: string)
    requires parts != []
    ensures parts[0] <= Join(parts, sep)
  {
  }

  /** A joined string ends with its last part. */
  lemma JoinEndsWith(parts: seq<string>, sep: string)
    requires parts != []
    ensures EndsWith(Join(parts, sep), parts[|parts| - 1])
  {
    var init := parts[..|parts| - 1];
    assert parts == init + [parts[|parts| - 1]];
    JoinSnoc(init, parts[|parts| - 1], sep);
  }
}

=== FILE: user_search.dfy ===
/** The admin's user list search: a case-insensitive substring filter over
    names and emails that keeps the list order. */
module UserSearch {
  import Text
  import Seqs

  /** A user as the admin list shows it. */
  datatype UserRow = UserRow(id: int, name: string, email: string, role: string)

  /** The lower-cased search text occurs in the lower-cased name or email. */
  predicate Matches(u: UserRow, search: string) {
    var needle := Text.ToLower(search);
    Text.Includes(Text.ToLower(u.name), needle) || Text.Includes(Text.ToLower(u.email), needle)
  }

  /** The users shown for a search. */
  function Filtered(users: seq<UserRow>, search: string): (r: seq<UserRow>)
    ensures Seqs.Subsequence(r, users)
    ensures forall u :: u in r <==>
      (u in users &&
       (Text.IsSubstring(Text.ToLower(search), Text.ToLower(u.name)) ||
        Text.IsSubstring(Text.ToLower(search), Text.ToLower(u.email))))
    ensures forall u :: multiset(r)[u] == if Matches(u, search) then multiset(users)[u] else 0
  {
    Seqs.Filter(users, u => Matches(u, search))
  }

  /** An empty search shows every user. */
  lemma EmptySearchKeepsAll(users: seq<UserRow>)
    ensures Filtered(users, "") == users
  {
    forall u | u in users ensures Matches(u, "") {
      Text.EmptyIncluded(Text.ToLower(u.name));
    }
    Seqs.FilterKeepsAll(users, u => Matches(u, ""));
  }

  /** Searches that lower-case alike show the same users, in the same order. */
  lemma CaseInsensitive(users: seq<UserRow>, s1: string, s2: string)
    requires Text.ToLower(s1) == Text.ToLower(s2)
    ensures Filtered(users, s1) == Filtered(users, s2)
  {
    Seqs.FilterSameKeep(users, u => Matches(u, s1), u => Matches(u, s2));
  }

  /** In particular a search and its lower-cased form show the same users. */
  lemma LowerCasedSearch(users: seq<UserRow>, search: string)
    ensures Filtered(users, Text.ToLower(search)) == Filtered(users, search)
  {
    Text.ToLowerIdempotent(search);
    CaseInsensitive(users, Text.ToLower(search), search);
  }
}

=== FILE: wrappers.dfy ===
/** Optional values. `None` stands for JavaScript's NaN where a parse can fail,
    and for JSON `null` where a field may be absent. */
module Wrappers {

  datatype Option<+T> = None | Some(value: T)
}
